=== FILE: README.md ===
# Users API request decisions, modelled in Dafny

This project models the decision logic of a small Express users API. It covers:

- the `/users` router, with its route table and the middleware chain in front of each handler;
- the token and admin middlewares;
- the role-tiered security guard that sits in front of the application;
- the request validators, which are zod schemas;
- the four handlers (list, fetch, update, delete);
- the user repository they call.

Every request is one sequential step. It maps a request and the users table (a `map<nat, User>`) to a response and the table that follows. Everything outside the process is a parameter:

- the database driver's health (`Driver`);
- token verification (`verify`);
- zod's email pattern (`isEmail`);
- the bot/shield/rate-limit engine (`decide`);
- the clock (`now`).

Modules, one per component of the program:

| module | file | models |
|---|---|---|
| `Values` | values.dfy | `Option` and `Result` |
| `Text` | text.dfy | the `\d` class, `Number()` on digit strings, `trim`, `toLowerCase` |
| `Users` | users.dfy | the user row, the table and its constraints, the identity a token carries, the update merge |
| `Validation` | validation.dfy | `userIdSchema` and `updateUserSchema` |
| `Services` | services.dfy | `getAllUsers`, `getUserById`, `updateUser` and `deleteUser`, including the "Failed to …: " rethrow |
| `Http` | http.dfy | requests, response bodies, status codes, and the respond-or-`next()` step |
| `Auth` | auth.dfy | `authenticateToken` and `requireAdmin` |
| `Security` | security.dfy | `securityMiddleware`: the tier table, the rule it submits, and the verdict mapping |
| `Controllers` | controllers.dfy | `fetchAllUsers`, `fetchUserById`, `updateUserById` and `deleteUserById` |
| `Routes` | routes.dfy | the route table, chain composition, and end-to-end scenarios |

The handlers take the catch-block policy as a parameter:

- `ByMessage` is the code as written.
- `ByKind` is the evidently intended behaviour (see Findings).
- The router takes the policy as part of its dependencies, so it models both.

## Model

| member | source | states |
|---|---|---|
| Text.DecimalString | src/validations/users.validation.js:4 | The decimal spelling of a number: non-empty, all digits, no leading zero, and `Number()` of it gives the number back |
| Text.LeadingZeroIgnored | src/validations/users.validation.js:4 | A leading "0" keeps a digit string all-digit and does not change its value |
| Text.TrimStart | src/validations/users.validation.js:9 | Returns a suffix of the input; everything removed is whitespace; the result does not start with whitespace |
| Text.TrimEnd | src/validations/users.validation.js:9 | Returns a prefix of the input; everything removed is whitespace; the result does not end with whitespace |
| Text.Trim | src/validations/users.validation.js:9 | The result is a slice of the input with only whitespace before and after it; it starts and ends with non-whitespace; the input is returned unchanged exactly when it already had that shape |
| Text.Utf16Length | src/validations/users.validation.js:9-10 | The `length` zod's bounds compare: between one and two code units per character, exactly one each when no character lies outside the Basic Multilingual Plane, exactly two each when all do |
| Text.TrimIdempotent | src/validations/users.validation.js:9 | Trimming twice equals trimming once |
| Text.LowerCase | src/validations/users.validation.js:10 | Same length as the input; no upper-case ASCII letter remains; each character is kept or is its lower-case letter |
| Text.LowerCaseCommutesWithTrim | src/validations/users.validation.js:10 | Lower-casing then trimming equals trimming then lower-casing, so the order of the email transforms does not matter |
| Users.RoleName | src/validations/users.validation.js:11 | Each role is named "user" or "admin", and only the admin role is named "admin" |
| Users.Merge | src/services/users.services.js:93-98 | Every supplied field replaces the stored value; absent fields, `id` and `created_at` keep theirs; `updated_at` becomes the clock value |
| Users.MergeIdempotent | src/services/users.services.js:93-98 | Applying the same update twice gives the row a single application gives at the second time |
| Validation.ParseId | src/validations/users.validation.js:4 | An id is accepted exactly when it is a non-empty all-digit string; it then yields its decimal value; otherwise the single id issue |
| Validation.ParseIdRoundTrip | src/validations/users.validation.js:4 | The decimal spelling of every number parses back to that number |
| Validation.ParseIdLeadingZeros | src/validations/users.validation.js:4 | Leading zeros are accepted and do not change the parsed id |
| Validation.ParseIdRejectsNonDigit | src/validations/users.validation.js:4 | A string with any non-digit character is rejected |
| Validation.ParseIdExamples | src/validations/users.validation.js:4 | "", "-1", "1.5" and "test-db" are rejected; "007" parses to 7 |
| Validation.ParseName | src/validations/users.validation.js:9 | A present name passes exactly when it is a string of 2 to 255 UTF-16 code units before trimming; the trimmed value is kept; an absent name stays absent |
| Validation.NameBoundIsOnRawInput | src/validations/users.validation.js:9 | The length bound applies to the name as sent: " a " is accepted and becomes "a" |
| Validation.AstralNameLongEnough | src/validations/users.validation.js:9 | One character outside the Basic Multilingual Plane is two code units, so it passes as a name |
| Validation.AstralNameTooLong | src/validations/users.validation.js:9 | 128 characters outside the Basic Multilingual Plane are 256 code units, so the name is rejected as too long |
| Validation.ParseEmail | src/validations/users.validation.js:10 | A present email passes exactly when it is an address of at most 255 UTF-16 code units; the lower-cased, trimmed value is kept |
| Validation.ParseRole | src/validations/users.validation.js:11 | A present role passes exactly when it is "user" or "admin", and maps to the role of that name |
| Validation.ParseUpdate | src/validations/users.validation.js:7-15 | Accepted exactly when the body is an object whose supplied fields all pass and which has one of the three keys; rejected with only the empty-update issue exactly when no key is present; each output field is present iff its key was, with the transformed value |
| Validation.EmptyUpdateMessage | src/validations/users.validation.js:13-15 | A body without name, email or role fails with the refinement alone, whose message is "At least one field must be provided for update" |
| Services.Rethrow | src/services/users.services.js:73 | The rethrown message is the prefix followed by the caught message; the error keeps its kind |
| Services.GetAllUsers | src/services/users.services.js:6-36 | Succeeds exactly when the driver is up, listing every stored row once and nothing else, with distinct ids when rows sit under their own key; fails with "Failed to fetch users: " and the driver's message otherwise |
| Services.GetUserById | src/services/users.services.js:38-75 | Succeeds exactly for a present id with that row; otherwise fails with "Failed to fetch user: …", which is the not-found kind exactly when the driver is up; with the driver down the message is exactly "Failed to fetch user: " followed by the driver's message |
| Services.UpdateUser | src/services/users.services.js:77-125 | Succeeds exactly when the driver is up, the id is present and the new email is not another row's; writes the merged row into that one key; fails with "Failed to update user: …", which is the not-found kind exactly when the row is missing while the driver is up; with the driver down the message is exactly "Failed to update user: Failed to fetch user: " followed by the driver's message |
| Services.DeleteUser | src/services/users.services.js:127-165 | Succeeds exactly for a present id while the driver is up; removes exactly that key and returns the row's projection; otherwise fails with "Failed to delete user: …"; with the driver down the message is exactly "Failed to delete user: Failed to fetch user: " followed by the driver's message |
| Services.MissingIdMessages | src/services/users.services.js:38-165 | For an absent id, the three lookups fail with exactly those messages and the not-found kind |
| Services.ServiceErrorsArePrefixed | src/services/users.services.js:34-163 | Every error leaving a service function starts with "Failed to ", so none is the bare "User not found" |
| Services.UpdatePreservesValid | src/services/users.services.js:93-107 | A successful update keeps the key and unique-email constraints, keeps the key set, and leaves every other row as it was |
| Services.UpdateIdempotent | src/services/users.services.js:93-107 | Repeating a successful update succeeds and leaves the same table as one update at the later time |
| Services.DeletePreservesValid | src/services/users.services.js:143-155 | A successful delete keeps the constraints and removes exactly one key |
| Auth.AuthenticateToken | src/middleware/auth.middleware.js:4-27 | Continues exactly when a non-empty token verifies, with the decoded identity attached and nothing else changed; otherwise 401 "No token provided" or 401 "Invalid or expired token" |
| Auth.RequireAdmin | src/middleware/auth.middleware.js:29-52 | Continues, unchanged, exactly when the identity's role is "admin"; 401 "User not authenticated" without an identity, 403 "Admin privileges required" otherwise |
| Auth.AuthenticateIgnoresPriorIdentity | src/middleware/auth.middleware.js:15-16 | The identity a request arrives with does not affect authentication's outcome |
| Auth.RefusalsAreAuthStatuses | src/middleware/auth.middleware.js:4-52 | Every refusal by the token middleware is a 401, and every refusal by the admin gate is a 401 or a 403 |
| Security.GuardRole | src/middleware/security.middleware.js:8 | The identity's role when it is a non-empty string, otherwise "guest" |
| Security.TierFor | src/middleware/security.middleware.js:13-45 | The three known roles get 20/10/5 in production and five times that in development; each message names its own limit "per minute"; any other role leaves both unset |
| Security.GuardRule | src/middleware/security.middleware.js:47-54 | The submitted rule enforces only outside development, uses the tier's limit, and is named after the role |
| Security.Guard | src/middleware/security.middleware.js:5-127 | Continues, unchanged, exactly when the policy admits the verdict; otherwise responds with the verdict's status (403, 429 or 500); a rate-limit denial gets 429 with the tier's message |
| Security.ProductionDenialMessages | src/middleware/security.middleware.js:62-126 | In production, bot and shield denials get their 403 messages and an engine failure gets the 500 body |
| Security.DevelopmentIsLenient | src/middleware/security.middleware.js:61-126 | Development admits everything production admits; it admits more exactly for bot denials, shield denials and engine failures |
| Security.GuestOverProductionLimit | src/middleware/security.middleware.js:40-43 | A production guest over the limit was measured against a live limit of 5 and is told the guest limit of 5 |
| Controllers.CatchAsWritten | src/controllers/users.controller.js:59-76 | The catch block as written: 404 with the not-found body exactly when the message is "User not found", otherwise `next(e)` |
| Controllers.CatchCorrected | src/controllers/users.controller.js:59-76 | The corrected catch block: 404 exactly for the repository's not-found error, otherwise `next(e)` |
| Controllers.FetchAllUsers | src/controllers/users.controller.js:7-33 | With the driver up: 200 with the full listing and `count` equal to the length of `users`; otherwise `next` with the wrapped driver message |
| Controllers.FetchUserById | src/controllers/users.controller.js:35-78 | A malformed id gets 400 whatever the table holds; a present id gets 200 with its row; 200 only then; a repository error goes through the selected catch block, so with the driver down the answer is `next` with "Failed to fetch user: " and the driver's message |
| Controllers.UpdateUserById | src/controllers/users.controller.js:80-157 | A refusal by the checks answers that refusal and leaves the table; otherwise 200 exactly when the repository update succeeds, with the merged row written and returned; the table changes only on 200; a repository error after the checks goes through the selected catch block with the table left alone, so with the driver down the answer is `next` with "Failed to update user: Failed to fetch user: " and the driver's message |
| Controllers.DeleteUserById | src/controllers/users.controller.js:159-220 | A malformed id gets 400; self-delete gets 400; a well-formed id that is present and not the actor's gets 200 while the driver is up; a 200 removes exactly the target row and shows only its id, email and name; the table changes only on 200; without an identity the TypeError message goes to `next`; a repository error goes through the selected catch block, so with the driver down the answer is `next` with "Failed to delete user: Failed to fetch user: " and the driver's message |
| Controllers.Authorize | src/controllers/users.controller.js:105-127 | 401 without an identity; the owner 403 exactly when the actor is neither the target nor an admin; a non-admin who supplies a role always gets 403, for their own id with "Only administrators can change user roles"; continues exactly when all three pass |
| Controllers.UpdateCheckOrder | src/controllers/users.controller.js:84-127 | The refusals come in the order id, body, identity, owner, role; the repository is reached exactly when all of them pass |
| Controllers.SelfDeleteIgnoresStore | src/controllers/users.controller.js:180-186 | The self-delete answer does not depend on the table or the driver |
| Controllers.AsWrittenFetchNever404 | src/controllers/users.controller.js:62 | As written, fetching never answers 404 |
| Controllers.AsWrittenUpdateNever404 | src/controllers/users.controller.js:141 | As written, updating never answers 404 |
| Controllers.AsWrittenDeleteNever404 | src/controllers/users.controller.js:204 | As written, deleting never answers 404 |
| Controllers.AsWrittenFetchForwards | src/controllers/users.controller.js:59-77 | As written, every repository error a fetch catches goes to `next` with the repository's message unchanged |
| Controllers.AsWrittenUpdateForwards | src/controllers/users.controller.js:138-156 | As written, every repository error an update catches after its checks goes to `next` with the repository's message unchanged, and the table is left alone |
| Controllers.AsWrittenDeleteForwards | src/controllers/users.controller.js:201-219 | As written, every repository error a delete of another user catches goes to `next` with the repository's message unchanged, and the table is left alone |
| Controllers.AsWrittenMissingFetch | src/controllers/users.controller.js:49-70 | As written, fetching a missing id passes "Failed to fetch user: User not found" to `next` |
| Controllers.CorrectedFetch404Iff | src/controllers/users.controller.js:59-67 | Corrected, fetch answers 404 exactly for a well-formed id that is missing while the driver is up |
| Controllers.CorrectedUpdate404Iff | src/controllers/users.controller.js:138-146 | Corrected, an update past all checks answers 404 exactly when its target is missing while the driver is up |
| Controllers.CorrectedDelete404Iff | src/controllers/users.controller.js:201-209 | Corrected, deleting someone else answers 404 exactly when the target is missing while the driver is up |
| Routes.Match | src/routes/users.routes.js:16-20 | The first registered route matching the method and path: /test-db before /:id, GET also serving HEAD, `:id` one non-empty segment; no match otherwise |
| Routes.RunChainAppend | src/routes/users.routes.js:19-20 | Running two chains in sequence is running their concatenation |
| Routes.RunChainKeepsRequest | src/routes/users.routes.js:19-20 | A chain that continues changes nothing in the request but the identity |
| Routes.UpdateChainAuthenticates | src/routes/users.routes.js:19 | The update handler runs exactly when a non-empty token verifies, and it sees that token's identity |
| Routes.DeleteChainAdmitsAdminsOnly | src/routes/users.routes.js:20 | The delete handler runs exactly when a non-empty token verifies to an identity with role "admin", and it sees that identity |
| Routes.Serve | src/routes/users.routes.js:16-20 | Unmatched, probe and list requests are set apart exactly by the route they match; the table changes only on an update or delete whose chain let the request through; a fetch is answered by the fetch handler; a chain that responds has its reply returned with the table unchanged; a chain that continues hands the update or delete handler the request's own body and the identity the chain attached; every handler uses the catch blocks the dependencies select, as written or corrected |
| Routes.Dispatch | src/routes/users.routes.js:17 | The list route answers 200 with the full listing while the driver is up and leaves the table; every other route behaves as `Serve` |
| Routes.TestDbShadowsId | src/routes/users.routes.js:16-18 | GET /test-db, in any ASCII letter case, reaches the probe and never the id route |
| Routes.ReadRoutesAreOpen | src/routes/users.routes.js:17-18 | The read routes have no middleware in front of them |
| Routes.PutWithoutTokenIs401 | src/routes/users.routes.js:19 | A PUT without a token, or with one that fails to verify, gets 401; the table is untouched and the answer is the same whatever the table holds |
| Routes.RoutedDeleteHasIdentity | src/routes/users.routes.js:20 | Through the router, the delete handler never fails for want of an identity |
| Routes.RoutedUpdateHasIdentity | src/routes/users.routes.js:19 | Through the router, the update handler's own 401 never fires |
| Routes.RenameSelf | src/controllers/users.controller.js:80-137 | PUT /7 with {"name":"Ada"} by user 7 gets 200 with name "Ada" and the stored role |
| Routes.SelfPromotionRefused | src/controllers/users.controller.js:121-127 | PUT /7 with {"role":"admin"} by user 7 gets 403 "Only administrators can change user roles" |
| Routes.AdminSelfDelete | src/controllers/users.controller.js:180-186 | DELETE /3 by admin 3 gets 400 whatever the table holds |
| Routes.MissingUserIs404 | src/controllers/users.controller.js:59-67 | With the corrected catch, GET of a missing well-formed id gets 404 with the fixed error body |
| Routes.MissingUserAsWritten | src/controllers/users.controller.js:59-70 | With the catch as written, the same request goes to `next` with "Failed to fetch user: User not found" |

## Left out

- `testDatabase` and GET /test-db are not modelled beyond routing. That route is a raw SQL probe against the driver. `Routes.Serve` ends it in `ProbeDatabase`.
- The "Database connection not available" branches (src/services/users.services.js:11, 43, 82, 132) are not modelled. The database module throws at load time when it has no connection string, so `db` is always set when a service runs.
- The 500 fallbacks for when `next` is not a function (src/controllers/users.controller.js:24-31 and its siblings) are not modelled. Express always passes a function.
- The "Failed to update user" and "Failed to delete user" errors for a write that returns no row (src/services/users.services.js:109-111, 150-152) are not modelled. They need another request to remove the row between the existence check and the write. Each request here is one atomic step, so concurrency and async interleaving are out.
- Logging is left out: every logger call.
- Error kinds: the source's errors carry only a message. The model's `Services.Error` adds a not-found flag so that the corrected catch block can be expressed (see Findings).
- Services.UpdateUser: the duplicate-email failure is modelled with a fixed placeholder message. Its real wording comes from the database.
- Token ids: the `id` in a token's payload is taken to be a number. The handlers compare it to the parsed id with `!==`, so a string id in a token would never match.
- Validation.ParseId: ids are unbounded naturals. `Number()` loses precision past 2^53, so very long digit strings are not modelled as they behave.
- Validation.ParseEmail: zod's email pattern is the parameter `isEmail`.
- Validation.ParseUpdate: validation issues are kept as issue kinds, not zod's message texts. `formatValidationError` is not part of this model and is left opaque. Bodies are JSON objects whose values are strings or something else; non-string values are not told apart further.
- Text.LowerCase: lowers ASCII letters only, whereas `toLowerCase` also maps non-ASCII letters, so emails containing such letters are weaker here.
- Routes.Match: matches "test-db" case-insensitively for ASCII letters only. The path arrives already split into decoded segments without a trailing empty segment, so percent-decoding and strict-routing options are not modelled.
- Auth.AuthenticateToken: JWT verification is the parameter `verify`. `None` stands for any exception it throws.
- Security.Guard: the bot/shield/rate-limit engine and its configuration are the parameter `decide`. Its sliding-window counting is not modelled, so "the sixth request in a minute" appears only as a rate-limit denial verdict. The request's IP and headers, which the engine also receives, are not modelled.
- How the guard is mounted on the application, and the router on `/users`, is not part of this model. The router is modelled from the `/users` mount point down.

## Findings

| source | as written | input that shows it | evidently intended | confidence | as-written member | corrected member |
|---|---|---|---|---|---|---|
| src/controllers/users.controller.js:62 | `e.message === 'User not found'` is compared against an error `getUserById` has already rethrown as "Failed to fetch user: User not found" (src/services/users.services.js:73) | GET /users/999 with no row 999: the handler calls `next(e)` with "Failed to fetch user: User not found" | 404 "User not found" for a missing id | not executed | Controllers.AsWrittenFetchNever404 | Controllers.CorrectedFetch404Iff |
| src/controllers/users.controller.js:141 | the same comparison, against "Failed to update user: Failed to fetch user: User not found" | PUT /users/999 with {"name":"Ada"} by an admin, no row 999: `next(e)` instead of 404 | 404 for an update of a missing id | not executed | Controllers.AsWrittenUpdateForwards | Controllers.CorrectedUpdate404Iff |
| src/controllers/users.controller.js:204 | the same comparison, against "Failed to delete user: Failed to fetch user: User not found" | DELETE /users/999 by admin 1, no row 999: `next(e)` instead of 404 | 404 for a delete of a missing id | not executed | Controllers.AsWrittenDeleteForwards | Controllers.CorrectedDelete404Iff |

The authentication middleware gives different messages for a missing token and for a token that fails to verify. The model follows that code, not a uniform authentication error.

=== FILE: auth.dfy ===
/** The two authentication middlewares: token verification and the admin
    gate. Token verification itself is a parameter: `verify(token)` is the
    decoded payload, or `None` when verification throws (bad signature,
    expired, malformed). */
module Auth {
  import opened Values
  import opened Users
  import opened Http

  /** The cookie is missing or empty (both are falsy). */
  predicate NoToken(req: Request) {
    req.token.None? || req.token.value == ""
  }

  /** `authenticateToken`: 401 without a token, 401 when verification
      fails, otherwise the decoded identity is attached and the request
      continues. */
  function AuthenticateToken(req: Request, verify: string -> Option<Identity>): (s: Step)
    ensures s.Next? <==> !NoToken(req) && verify(req.token.value).Some?
    ensures s.Next? ==> s.request == req.(user := verify(req.token.value))
    ensures NoToken(req) ==> s == Halt(Send(UNAUTHORIZED, ErrorBody("Authentication required", "No token provided")))
    ensures !NoToken(req) && verify(req.token.value).None? ==>
      s == Halt(Send(UNAUTHORIZED, ErrorBody("Authentication failed", "Invalid or expired token")))
  {
    if NoToken(req) then
      Halt(Send(UNAUTHORIZED, ErrorBody("Authentication required", "No token provided")))
    else
      match verify(req.token.value)
      case None => Halt(Send(UNAUTHORIZED, ErrorBody("Authentication failed", "Invalid or expired token")))
      case Some(decoded) => Next(req.(user := Some(decoded)))
  }

  /** `requireAdmin`: 401 without an identity, 403 for any role but
      "admin", otherwise the request continues unchanged. */
  function RequireAdmin(req: Request): (s: Step)
    ensures s.Next? <==> req.user.Some? && req.user.value.role == "admin"
    ensures s.Next? ==> s.request == req
    ensures req.user.None? ==> s == Halt(Send(UNAUTHORIZED, ErrorBody("Authentication required", "User not authenticated")))
    ensures req.user.Some? && req.user.value.role != "admin" ==>
      s == Halt(Send(FORBIDDEN, ErrorBody("Access denied", "Admin privileges required")))
  {
    match req.user
    case None => Halt(Send(UNAUTHORIZED, ErrorBody("Authentication required", "User not authenticated")))
    case Some(u) =>
      if u.role != "admin" then Halt(Send(FORBIDDEN, ErrorBody("Access denied", "Admin privileges required")))
      else Next(req)
  }

  /** Whatever identity the request arrived with, authentication replaces
      it: the outcome depends only on the token. */
  lemma AuthenticateIgnoresPriorIdentity(req: Request, prior: Option<Identity>, verify: string -> Option<Identity>)
    ensures AuthenticateToken(req.(user := prior), verify).Halt?
        <==> AuthenticateToken(req, verify).Halt?
    ensures AuthenticateToken(req.(user := prior), verify).Next? ==>
      AuthenticateToken(req.(user := prior), verify) == AuthenticateToken(req, verify)
  {
  }

  /** A refusal by either middleware is always a 401 or 403 response. */
  lemma RefusalsAreAuthStatuses(req: Request, verify: string -> Option<Identity>)
    ensures AuthenticateToken(req, verify).Halt? ==> AuthenticateToken(req, verify).reply == Send(UNAUTHORIZED, AuthenticateToken(req, verify).reply.body)
    ensures RequireAdmin(req).Halt? ==>
      RequireAdmin(req).reply.Send? && RequireAdmin(req).reply.status in {UNAUTHORIZED, FORBIDDEN}
  {
  }
}

=== FILE: controllers.dfy ===
/** The request handlers. Each validates its input, applies its
    authorization checks in a fixed order, calls the repository, and maps a
    caught error either to 404 or to `next(e)`.

    The catch blocks test `e.message === 'User not found'`, but every error
    from the repository arrives wrapped in "Failed to …: " prefixes, so that
    test never succeeds (`AsWrittenFetchNever404` and its siblings). The handlers take the catch
    policy as a parameter: `ByMessage` is the source as written, `ByKind`
    the evidently intended mapping of the repository's not-found error to
    404, which the router uses. */
module Controllers {
  import opened Values
  import opened Users
  import opened Validation
  import opened Services
  import opened Http

  /** How a catch block recognises a missing user. */
  datatype Catching = ByMessage | ByKind

  const NOT_FOUND_BODY := ErrorBody("User not found", "No user found with the provided ID")

  /** The catch block as written: 404 only for the bare message
      "User not found", otherwise `next(e)`. */
  function CatchAsWritten(e: Error): (reply: Reply)
    ensures reply.Send? <==> e.message == NOT_FOUND
    ensures reply.Send? ==> reply == Send(NOT_FOUND_STATUS, NOT_FOUND_BODY)
    ensures reply.Forward? ==> reply.error == e.message
  {
    if e.message == NOT_FOUND then Send(NOT_FOUND_STATUS, NOT_FOUND_BODY) else Forward(e.message)
  }

  /** The corrected catch block: 404 for the repository's not-found error,
      whatever prefixes its message has gathered, otherwise `next(e)`. */
  function CatchCorrected(e: Error): (reply: Reply)
    ensures reply.Send? <==> e.notFound
    ensures reply.Send? ==> reply == Send(NOT_FOUND_STATUS, NOT_FOUND_BODY)
    ensures reply.Forward? ==> reply.error == e.message
  {
    if e.notFound then Send(NOT_FOUND_STATUS, NOT_FOUND_BODY) else Forward(e.message)
  }

  function Catch(policy: Catching, e: Error): Reply {
    match policy
    case ByMessage => CatchAsWritten(e)
    case ByKind => CatchCorrected(e)
  }

  /** The 400 response of a failed schema parse. */
  function Invalid(issues: seq<Issue>): Reply {
    Send(BAD_REQUEST, ValidationBody("Validation failed", issues))
  }

  // ---------------------------------------------------------------------------
  // GET /

  /** `fetchAllUsers`: the whole table with its size, or `next(e)`. */
  method FetchAllUsers(drv: Driver, store: Store) returns (reply: Reply)
    ensures drv.Up? ==> reply.Send? && reply.status == OK && reply.body.UsersBody?
    ensures drv.Up? ==> reply.body.count == |reply.body.users| == |store|
    ensures drv.Up? ==> Listing(reply.body.users, store)
    ensures drv.Down? ==> reply == Forward(LIST_PREFIX + drv.message)
  {
    var r := GetAllUsers(drv, store);
    match r
    case Ok(all) =>
      reply := Send(OK, UsersBody("Successfully retrieved users", all, |all|));
    case Err(e) =>
      reply := Forward(e.message);
  }

  // ---------------------------------------------------------------------------
  // GET /:id

  /** `fetchUserById`: 400 for a malformed id without consulting the
      table, the row for a present id, the catch block otherwise. */
  function FetchUserById(policy: Catching, drv: Driver, store: Store, rawId: string): (reply: Reply)
    ensures !IdAcceptable(rawId) ==> reply == Invalid([BadId])
    ensures IdAcceptable(rawId) && drv.Up? && ParseId(rawId).value in store ==>
      reply == Send(OK, UserBody("User retrieved successfully", store[ParseId(rawId).value]))
    ensures reply.Send? && reply.status == OK ==> IdAcceptable(rawId) && drv.Up? && ParseId(rawId).value in store
    ensures IdAcceptable(rawId) && GetUserById(drv, store, ParseId(rawId).value).Err? ==>
      reply == Catch(policy, GetUserById(drv, store, ParseId(rawId).value).error)
    ensures IdAcceptable(rawId) && drv.Down? ==> reply == Forward(FETCH_PREFIX + drv.message)
  {
    match ParseId(rawId)
    case Err(issues) => Invalid(issues)
    case Ok(id) =>
      match GetUserById(drv, store, id)
      case Ok(u) => Send(OK, UserBody("User retrieved successfully", u))
      case Err(e) => Catch(policy, e)
  }

  // ---------------------------------------------------------------------------
  // PUT /:id

  /** The identity checks `updateUserById` makes once its input is valid,
      in order: 401 without an identity, 403 for another user's row unless
      the actor is an admin, 403 for a role change unless the actor is an
      admin. `None` when all pass. */
  function Authorize(id: nat, f: Fields, user: Option<Identity>): (refusal: Option<Reply>)
    ensures user.None? ==>
      refusal == Some(Send(UNAUTHORIZED, ErrorBody("Authentication required", "You must be logged in to update user information")))
    ensures user.Some? ==>
      (refusal == Some(Send(FORBIDDEN, ErrorBody("Access denied", "You can only update your own information")))
       <==> user.value.id != id && user.value.role != "admin")
    ensures user.Some? && user.value.id == id && user.value.role != "admin" && f.role.Some? ==>
      refusal == Some(Send(FORBIDDEN, ErrorBody("Access denied", "Only administrators can change user roles")))
    ensures user.Some? && f.role.Some? && user.value.role != "admin" ==>
      refusal.Some? && refusal.value.Send? && refusal.value.status == FORBIDDEN
    ensures refusal.None? <==>
      user.Some? && (user.value.id == id || user.value.role == "admin") && (f.role.None? || user.value.role == "admin")
  {
    if user.None? then
      Some(Send(UNAUTHORIZED, ErrorBody("Authentication required", "You must be logged in to update user information")))
    else if user.value.id != id && user.value.role != "admin" then
      Some(Send(FORBIDDEN, ErrorBody("Access denied", "You can only update your own information")))
    else if f.role.Some? && user.value.role != "admin" then
      Some(Send(FORBIDDEN, ErrorBody("Access denied", "Only administrators can change user roles")))
    else None
  }

  /** The checks `updateUserById` makes before it touches the table, in
      order: the id, the body, then `Authorize`. `None` when all pass. */
  function UpdateRefusal(rawId: string, body: RequestBody, user: Option<Identity>, isEmail: string -> bool): Option<Reply>
  {
    match ParseId(rawId)
    case Err(issues) => Some(Invalid(issues))
    case Ok(id) =>
      match ParseUpdate(body, isEmail)
      case Err(issues) => Some(Invalid(issues))
      case Ok(f) => Authorize(id, f, user)
  }

  /** `updateUserById`. Nothing is written unless every check passes and
      the repository accepts the update; a successful update answers with
      the written row. */
  function UpdateUserById(policy: Catching, drv: Driver, store: Store, rawId: string, body: RequestBody,
                          user: Option<Identity>, isEmail: string -> bool, now: Time): (h: Handled)
    ensures !IdAcceptable(rawId) ==> h == Handled(Invalid([BadId]), store)
    ensures UpdateRefusal(rawId, body, user, isEmail).Some? ==>
      h == Handled(UpdateRefusal(rawId, body, user, isEmail).value, store)
    ensures h.store != store ==> UpdateRefusal(rawId, body, user, isEmail).None?
    ensures h.reply.Send? && h.reply.status == OK ==>
      && UpdateRefusal(rawId, body, user, isEmail).None?
      && var id := ParseId(rawId).value;
      && var f := ParseUpdate(body, isEmail).value;
      && id in store
      && h.store == store[id := Merge(store[id], f, now)]
      && h.reply.body == UserBody("User updated successfully", Merge(store[id], f, now))
    ensures UpdateRefusal(rawId, body, user, isEmail).None? ==>
      (h.reply.Send? && h.reply.status == OK
       <==> UpdateUser(drv, store, ParseId(rawId).value, ParseUpdate(body, isEmail).value, now).Ok?)
    ensures !(h.reply.Send? && h.reply.status == OK) ==> h.store == store
    ensures UpdateRefusal(rawId, body, user, isEmail).None? &&
            UpdateUser(drv, store, ParseId(rawId).value, ParseUpdate(body, isEmail).value, now).Err? ==>
      h == Handled(Catch(policy, UpdateUser(drv, store, ParseId(rawId).value, ParseUpdate(body, isEmail).value, now).error), store)
    ensures UpdateRefusal(rawId, body, user, isEmail).None? && drv.Down? ==>
      h == Handled(Forward(UPDATE_PREFIX + (FETCH_PREFIX + drv.message)), store)
  {
    match UpdateRefusal(rawId, body, user, isEmail)
    case Some(refusal) => Handled(refusal, store)
    case None =>
      var id := ParseId(rawId).value;
      var f := ParseUpdate(body, isEmail).value;
      match UpdateUser(drv, store, id, f, now)
      case Ok(change) => Handled(Send(OK, UserBody("User updated successfully", change.value)), change.store)
      case Err(e) => Handled(Catch(policy, e), store)
  }

  // ---------------------------------------------------------------------------
  // DELETE /:id

  /** The TypeError message raised by reading `req.user.email` when no
      identity is attached. It is one message; the literal is written in
      two parts because the verifier cannot index into a single literal
      this long, and its first character is what tells it apart from the
      services' "Failed to …" messages. */
  const NO_USER_TYPE_ERROR := "Cannot" + " read properties of undefined (reading 'email')"

  /** `deleteUserById`: 400 for a malformed id, 400 for an attempt to
      delete oneself (before any lookup), the removed row's id, email and
      name on success, the catch block otherwise. */
  function DeleteUserById(policy: Catching, drv: Driver, store: Store, rawId: string, user: Option<Identity>): (h: Handled)
    ensures !IdAcceptable(rawId) ==> h == Handled(Invalid([BadId]), store)
    ensures IdAcceptable(rawId) && user.Some? && user.value.id == ParseId(rawId).value ==>
      h == Handled(Send(BAD_REQUEST, ErrorBody("Invalid operation", "Administrators cannot delete their own account")), store)
    ensures h.reply.Send? && h.reply.status == OK ==>
      && IdAcceptable(rawId) && user.Some? && drv.Up?
      && var id := ParseId(rawId).value;
      && user.value.id != id && id in store
      && h.store == store - {id}
      && h.reply.body == DeletedBody("User deleted successfully", store[id].id, store[id].email, store[id].name)
    ensures IdAcceptable(rawId) && user.Some? && user.value.id != ParseId(rawId).value && drv.Up? && ParseId(rawId).value in store ==>
      h.reply.Send? && h.reply.status == OK
    ensures !(h.reply.Send? && h.reply.status == OK) ==> h.store == store
    ensures IdAcceptable(rawId) && user.None? ==> h == Handled(Forward(NO_USER_TYPE_ERROR), store)
    ensures IdAcceptable(rawId) && user.Some? && user.value.id != ParseId(rawId).value &&
            DeleteUser(drv, store, ParseId(rawId).value).Err? ==>
      h == Handled(Catch(policy, DeleteUser(drv, store, ParseId(rawId).value).error), store)
    ensures IdAcceptable(rawId) && user.Some? && user.value.id != ParseId(rawId).value && drv.Down? ==>
      h == Handled(Forward(DELETE_PREFIX + (FETCH_PREFIX + drv.message)), store)
  {
    match ParseId(rawId)
    case Err(issues) => Handled(Invalid(issues), store)
    case Ok(id) =>
      if user.None? then Handled(Forward(NO_USER_TYPE_ERROR), store)
      else if user.value.id == id then
        Handled(Send(BAD_REQUEST, ErrorBody("Invalid operation", "Administrators cannot delete their own account")), store)
      else
        match DeleteUser(drv, store, id)
        case Ok(change) =>
          var d := change.value;
          Handled(Send(OK, DeletedBody("User deleted successfully", d.id, d.email, d.name)), change.store)
        case Err(e) => Handled(Catch(policy, e), store)
  }

  // ---------------------------------------------------------------------------
  // Properties of the checks

  /** The refusals come in the order id, body, identity, owner, role:
      each check only speaks when all earlier ones passed. */
  lemma {:induction false} UpdateCheckOrder(rawId: string, body: RequestBody, user: Option<Identity>, isEmail: string -> bool)
    ensures ParseId(rawId).Err? ==> UpdateRefusal(rawId, body, user, isEmail) == Some(Invalid([BadId]))
    ensures ParseId(rawId).Ok? && ParseUpdate(body, isEmail).Err? ==>
      UpdateRefusal(rawId, body, user, isEmail) == Some(Invalid(ParseUpdate(body, isEmail).error))
    ensures ParseId(rawId).Ok? && ParseUpdate(body, isEmail).Ok? && user.None? ==>
      UpdateRefusal(rawId, body, user, isEmail).value.status == UNAUTHORIZED
    ensures UpdateRefusal(rawId, body, user, isEmail).None? <==>
      && ParseId(rawId).Ok? && ParseUpdate(body, isEmail).Ok? && user.Some?
      && (user.value.id == ParseId(rawId).value || user.value.role == "admin")
      && (ParseUpdate(body, isEmail).value.role.None? || user.value.role == "admin")
  {
  }

  /** The self-delete guard answers the same whatever the table and driver
      hold: it runs before any lookup. */
  lemma {:induction false} SelfDeleteIgnoresStore(policy: Catching, d1: Driver, s1: Store, d2: Driver, s2: Store, rawId: string, actor: Identity)
    requires IdAcceptable(rawId) && actor.id == ParseId(rawId).value
    ensures DeleteUserById(policy, d1, s1, rawId, Some(actor)).reply == DeleteUserById(policy, d2, s2, rawId, Some(actor)).reply
  {
  }

  // ---------------------------------------------------------------------------
  // The 404 branch

  /** As written, no handler ever answers 404: every repository error
      carries a "Failed to " prefix, so the comparison with the bare
      "User not found" fails and the error goes to `next`. */
  lemma {:induction false} AsWrittenFetchNever404(drv: Driver, store: Store, rawId: string)
    ensures FetchUserById(ByMessage, drv, store, rawId) != Send(NOT_FOUND_STATUS, NOT_FOUND_BODY)
  {
    if ParseId(rawId).Ok? {
      ServiceErrorsArePrefixed(drv, store, ParseId(rawId).value, Fields(None, None, None), 0);
    }
  }

  lemma {:induction false} AsWrittenUpdateNever404(drv: Driver, store: Store, rawId: string, body: RequestBody,
                                                   user: Option<Identity>, isEmail: string -> bool, now: Time)
    ensures UpdateUserById(ByMessage, drv, store, rawId, body, user, isEmail, now).reply != Send(NOT_FOUND_STATUS, NOT_FOUND_BODY)
  {
    if UpdateRefusal(rawId, body, user, isEmail).None? {
      ServiceErrorsArePrefixed(drv, store, ParseId(rawId).value, ParseUpdate(body, isEmail).value, now);
    }
  }

  lemma {:induction false} AsWrittenDeleteNever404(drv: Driver, store: Store, rawId: string, user: Option<Identity>)
    ensures DeleteUserById(ByMessage, drv, store, rawId, user).reply != Send(NOT_FOUND_STATUS, NOT_FOUND_BODY)
  {
    if ParseId(rawId).Ok? {
      ServiceErrorsArePrefixed(drv, store, ParseId(rawId).value, Fields(None, None, None), 0);
    }
  }

  /** As written, every repository error a handler catches goes to `next`
      with the repository's message unchanged. */
  lemma {:induction false} AsWrittenFetchForwards(drv: Driver, store: Store, rawId: string)
    requires IdAcceptable(rawId) && GetUserById(drv, store, ParseId(rawId).value).Err?
    ensures FetchUserById(ByMessage, drv, store, rawId) == Forward(GetUserById(drv, store, ParseId(rawId).value).error.message)
  {
    ServiceErrorsArePrefixed(drv, store, ParseId(rawId).value, Fields(None, None, None), 0);
  }

  lemma {:induction false} AsWrittenUpdateForwards(drv: Driver, store: Store, rawId: string, body: RequestBody,
                                                   user: Option<Identity>, isEmail: string -> bool, now: Time)
    requires UpdateRefusal(rawId, body, user, isEmail).None?
    requires UpdateUser(drv, store, ParseId(rawId).value, ParseUpdate(body, isEmail).value, now).Err?
    ensures UpdateUserById(ByMessage, drv, store, rawId, body, user, isEmail, now) ==
      Handled(Forward(UpdateUser(drv, store, ParseId(rawId).value, ParseUpdate(body, isEmail).value, now).error.message), store)
  {
    ServiceErrorsArePrefixed(drv, store, ParseId(rawId).value, ParseUpdate(body, isEmail).value, now);
  }

  lemma {:induction false} AsWrittenDeleteForwards(drv: Driver, store: Store, rawId: string, actor: Identity)
    requires IdAcceptable(rawId) && actor.id != ParseId(rawId).value
    requires DeleteUser(drv, store, ParseId(rawId).value).Err?
    ensures DeleteUserById(ByMessage, drv, store, rawId, Some(actor)) ==
      Handled(Forward(DeleteUser(drv, store, ParseId(rawId).value).error.message), store)
  {
    ServiceErrorsArePrefixed(drv, store, ParseId(rawId).value, Fields(None, None, None), 0);
  }

  /** The concrete case: fetching a missing id as written is handed to
      `next` with the wrapped message instead of answering 404. */
  lemma {:induction false} AsWrittenMissingFetch(store: Store, rawId: string)
    requires IdAcceptable(rawId) && ParseId(rawId).value !in store
    ensures FetchUserById(ByMessage, Up, store, rawId) == Forward("Failed to fetch user: User not found")
  {
    MissingIdMessages(store, ParseId(rawId).value, Fields(None, None, None), 0);
  }

  /** Corrected, a well-formed id answers 404 exactly when the driver is up
      and the row is missing. */
  lemma {:induction false} CorrectedFetch404Iff(drv: Driver, store: Store, rawId: string)
    ensures FetchUserById(ByKind, drv, store, rawId) == Send(NOT_FOUND_STATUS, NOT_FOUND_BODY)
        <==> IdAcceptable(rawId) && drv.Up? && ParseId(rawId).value !in store
  {
  }

  /** Corrected, an update that passes every check answers 404 exactly
      when the driver is up and the row is missing. */
  lemma {:induction false} CorrectedUpdate404Iff(drv: Driver, store: Store, rawId: string, body: RequestBody,
                                                 user: Option<Identity>, isEmail: string -> bool, now: Time)
    requires UpdateRefusal(rawId, body, user, isEmail).None?
    ensures UpdateUserById(ByKind, drv, store, rawId, body, user, isEmail, now).reply == Send(NOT_FOUND_STATUS, NOT_FOUND_BODY)
        <==> drv.Up? && ParseId(rawId).value !in store
  {
  }

  /** Corrected, a delete of someone else answers 404 exactly when the
      driver is up and the row is missing. */
  lemma {:induction false} CorrectedDelete404Iff(drv: Driver, store: Store, rawId: string, actor: Identity)
    requires IdAcceptable(rawId) && actor.id != ParseId(rawId).value
    ensures DeleteUserById(ByKind, drv, store, rawId, Some(actor)).reply == Send(NOT_FOUND_STATUS, NOT_FOUND_BODY)
        <==> drv.Up? && ParseId(rawId).value !in store
  {
  }
}

=== FILE: http.dfy ===
/** Requests, responses and the respond-or-continue step every middleware
    takes. */
module Http {
  import opened Values
  import opened Users
  import Validation

  /** The HTTP methods the router distinguishes. `OtherMethod` carries
      every method but these four, upper-cased as Node parses it, so its
      `name` is never "GET", "HEAD", "PUT" or "DELETE" (`NamedOnce`). */
  datatype Method = Get | Head | Put | Delete | OtherMethod(name: string)

  /** Each of the four named methods has exactly one spelling. */
  predicate NamedOnce(m: Method) {
    m.OtherMethod? ==> m.name != "GET" && m.name != "HEAD" && m.name != "PUT" && m.name != "DELETE"
  }

  /** What a handler or middleware reads from a request: the method (`verb`), the
      path below the users mount point split into decoded segments, the
      `token` cookie, the identity an earlier middleware attached, and the
      parsed JSON body. */
  datatype Request = Request(
    verb: Method,
    path: seq<string>,
    token: Option<string>,
    user: Option<Identity>,
    body: Validation.RequestBody)

  /** The JSON bodies the users API sends. */
  datatype ResponseBody =
    | ErrorBody(error: string, message: string)
      /** `{ error, message }` where `message` may be undefined and then omitted. */
    | LimitBody(error: string, limitMessage: Option<string>)
    | ValidationBody(error: string, details: seq<Validation.Issue>)
    | UsersBody(message: string, users: seq<User>, count: nat)
    | UserBody(message: string, user: User)
      /** The deleted row, reduced to id, email and name. */
    | DeletedBody(message: string, id: nat, email: string, name: string)

  /** How a handler finishes: a response with a status, or `next(e)`, which
      hands the error message to the application's error handler. */
  datatype Reply = Send(status: nat, body: ResponseBody) | Forward(error: string)

  /** A middleware either finishes the request or calls `next()` with the
      (possibly extended) request; never both. */
  datatype Step = Halt(reply: Reply) | Next(request: Request)

  /** A handler's reply together with the table it leaves behind. */
  datatype Handled = Handled(reply: Reply, store: Store)

  const OK := 200
  const BAD_REQUEST := 400
  const UNAUTHORIZED := 401
  const FORBIDDEN := 403
  const NOT_FOUND_STATUS := 404
  const TOO_MANY := 429
  const SERVER_ERROR := 500
}

=== FILE: routes.dfy ===
/** The users router: the route table, in registration order, and the
    middleware chain in front of each handler. A chain runs its middlewares
    one after the other; the first that responds ends the request, and the
    handler runs only when all of them called `next()`. */
module Routes {
  import opened Values
  import opened Text
  import opened Users
  import opened Validation
  import opened Services
  import opened Http
  import opened Auth
  import opened Controllers

  /** The five registered routes; the id routes carry the `:id` segment. */
  datatype Route = TestDb | ListAll | FetchOne(id: string) | UpdateOne(id: string) | RemoveOne(id: string)

  /** GET routes also answer HEAD requests. */
  predicate IsGet(verb: Method) {
    verb == Get || verb == Head
  }

  /** A literal segment matches regardless of ASCII letter case. */
  predicate SegmentIs(segment: string, literal: string) {
    LowerCase(segment) == literal
  }

  /** The first registered route that matches, or `None` (the request falls
      through to the rest of the application). The order is
      GET /test-db, GET /, GET /:id, PUT /:id, DELETE /:id; `:id` matches
      one non-empty segment. */
  function Match(verb: Method, path: seq<string>): (r: Option<Route>)
    ensures r == Some(TestDb) <==> IsGet(verb) && |path| == 1 && SegmentIs(path[0], "test-db")
    ensures r == Some(ListAll) <==> IsGet(verb) && path == []
    ensures r.Some? && r.value.FetchOne? ==> IsGet(verb) && path == [r.value.id] && !SegmentIs(r.value.id, "test-db")
    ensures r.Some? && r.value.UpdateOne? ==> verb == Put && path == [r.value.id]
    ensures r.Some? && r.value.RemoveOne? ==> verb == Delete && path == [r.value.id]
    ensures r.None? <==> !(|path| == 0 && IsGet(verb)) && !(|path| == 1 && path[0] != "" && (IsGet(verb) || verb == Put || verb == Delete))
  {
    if IsGet(verb) && |path| == 1 && SegmentIs(path[0], "test-db") then Some(TestDb)
    else if IsGet(verb) && |path| == 0 then Some(ListAll)
    else if IsGet(verb) && |path| == 1 && path[0] != "" then Some(FetchOne(path[0]))
    else if verb == Put && |path| == 1 && path[0] != "" then Some(UpdateOne(path[0]))
    else if verb == Delete && |path| == 1 && path[0] != "" then Some(RemoveOne(path[0]))
    else None
  }

  /** The route-level middlewares. */
  datatype Middleware = Authenticate | AdminOnly

  /** The chain registered in front of each handler. */
  function Chain(r: Route): seq<Middleware> {
    match r
    case UpdateOne(_) => [Authenticate]
    case RemoveOne(_) => [Authenticate, AdminOnly]
    case _ => []
  }

  /** One middleware applied to a request. */
  function Apply(m: Middleware, req: Request, verify: string -> Option<Identity>): Step {
    match m
    case Authenticate => AuthenticateToken(req, verify)
    case AdminOnly => RequireAdmin(req)
  }

  /** A chain run left to right: the first response ends it, otherwise the
      request each middleware passes on feeds the next. */
  function RunChain(chain: seq<Middleware>, req: Request, verify: string -> Option<Identity>): Step
    decreases |chain|
  {
    if chain == [] then Next(req)
    else
      match Apply(chain[0], req, verify)
      case Halt(reply) => Halt(reply)
      case Next(req') => RunChain(chain[1..], req', verify)
  }

  /** Running a concatenated chain is running the first part, then, if it
      continued, the second part on the request it passed on. */
  lemma {:induction false} RunChainAppend(a: seq<Middleware>, b: seq<Middleware>, req: Request, verify: string -> Option<Identity>)
    ensures RunChain(a + b, req, verify) ==
      match RunChain(a, req, verify)
      case Halt(reply) => Halt(reply)
      case Next(req') => RunChain(b, req', verify)
    decreases |a|
  {
    if a == [] {
      assert a + b == b;
    } else {
      assert (a + b)[0] == a[0] && (a + b)[1..] == a[1..] + b;
      match Apply(a[0], req, verify)
      case Halt(reply) =>
        assert RunChain(a + b, req, verify) == Halt(reply);
      case Next(req') =>
        assert RunChain(a + b, req, verify) == RunChain(a[1..] + b, req', verify);
        RunChainAppend(a[1..], b, req', verify);
    }
  }

  /** No middleware changes anything but the identity it attaches. */
  lemma {:induction false} RunChainKeepsRequest(chain: seq<Middleware>, req: Request, verify: string -> Option<Identity>)
    ensures RunChain(chain, req, verify).Next? ==>
      RunChain(chain, req, verify).request == req.(user := RunChain(chain, req, verify).request.user)
    decreases |chain|
  {
    if chain != [] {
      match Apply(chain[0], req, verify)
      case Halt(_) =>
      case Next(req') => RunChainKeepsRequest(chain[1..], req', verify);
    }
  }

  /** The update handler runs only for a request whose token verified, and
      sees the identity decoded from it. */
  lemma UpdateChainAuthenticates(id: string, req: Request, verify: string -> Option<Identity>)
    ensures RunChain(Chain(UpdateOne(id)), req, verify).Next? <==> !NoToken(req) && verify(req.token.value).Some?
    ensures RunChain(Chain(UpdateOne(id)), req, verify).Next? ==>
      RunChain(Chain(UpdateOne(id)), req, verify).request == req.(user := verify(req.token.value))
  {
  }

  /** The delete handler runs only for a verified token whose identity has
      role "admin", and sees that identity. */
  lemma DeleteChainAdmitsAdminsOnly(id: string, req: Request, verify: string -> Option<Identity>)
    ensures RunChain(Chain(RemoveOne(id)), req, verify).Next? <==>
      !NoToken(req) && verify(req.token.value).Some? && verify(req.token.value).value.role == "admin"
    ensures RunChain(Chain(RemoveOne(id)), req, verify).Next? ==>
      RunChain(Chain(RemoveOne(id)), req, verify).request == req.(user := verify(req.token.value))
  {
    assert Chain(RemoveOne(id)) == [Authenticate] + [AdminOnly];
    RunChainAppend([Authenticate], [AdminOnly], req, verify);
    assert RunChain([Authenticate], req, verify) == AuthenticateToken(req, verify) by {
      assert [Authenticate][1..] == [];
    }
    assert [AdminOnly][1..] == [];
  }

  /** What the router needs from outside: the database driver, token
      verification, the email predicate and the clock, together with the
      catch blocks the handlers use (`ByMessage` as written, `ByKind`
      corrected). */
  datatype Deps = Deps(drv: Driver, verify: string -> Option<Identity>, isEmail: string -> bool, now: Time,
                       policy: Catching)

  /** How a request ends: a reply and the table afterwards, the database
      probe (not modelled), a full scan answered by `FetchAllUsers`, or no
      matching route. */
  datatype Outcome = Responded(reply: Reply, store: Store) | ProbeDatabase | ScanAll | Unmatched

  /** Every route but the list: match, run the chain, run the handler with
      the catch blocks `deps.policy` selects. */
  function Serve(req: Request, store: Store, deps: Deps): (o: Outcome)
    ensures Match(req.verb, req.path).None? <==> o.Unmatched?
    ensures Match(req.verb, req.path) == Some(TestDb) <==> o.ProbeDatabase?
    ensures Match(req.verb, req.path) == Some(ListAll) <==> o.ScanAll?
    ensures o.Responded? && o.store != store ==>
      && Match(req.verb, req.path).Some?
      && (Match(req.verb, req.path).value.UpdateOne? || Match(req.verb, req.path).value.RemoveOne?)
      && RunChain(Chain(Match(req.verb, req.path).value), req, deps.verify).Next?
    ensures Match(req.verb, req.path).Some? && Match(req.verb, req.path).value.FetchOne? ==>
      o == Responded(FetchUserById(deps.policy, deps.drv, store, Match(req.verb, req.path).value.id), store)
    ensures Match(req.verb, req.path).Some? && RunChain(Chain(Match(req.verb, req.path).value), req, deps.verify).Halt? ==>
      o == Responded(RunChain(Chain(Match(req.verb, req.path).value), req, deps.verify).reply, store)
    ensures Match(req.verb, req.path).Some? && Match(req.verb, req.path).value.UpdateOne? &&
            RunChain(Chain(Match(req.verb, req.path).value), req, deps.verify).Next? ==>
      var h := UpdateUserById(deps.policy, deps.drv, store, Match(req.verb, req.path).value.id, req.body,
                              RunChain(Chain(Match(req.verb, req.path).value), req, deps.verify).request.user,
                              deps.isEmail, deps.now);
      o == Responded(h.reply, h.store)
    ensures Match(req.verb, req.path).Some? && Match(req.verb, req.path).value.RemoveOne? &&
            RunChain(Chain(Match(req.verb, req.path).value), req, deps.verify).Next? ==>
      var h := DeleteUserById(deps.policy, deps.drv, store, Match(req.verb, req.path).value.id,
                              RunChain(Chain(Match(req.verb, req.path).value), req, deps.verify).request.user);
      o == Responded(h.reply, h.store)
  {
    match Match(req.verb, req.path)
    case None => Unmatched
    case Some(route) =>
      match route
      case TestDb => ProbeDatabase
      case ListAll => ScanAll
      case FetchOne(id) => Responded(FetchUserById(deps.policy, deps.drv, store, id), store)
      case UpdateOne(id) =>
        (match RunChain(Chain(route), req, deps.verify)
         case Halt(reply) => Responded(reply, store)
         case Next(req') =>
           RunChainKeepsRequest(Chain(route), req, deps.verify);
           var h := UpdateUserById(deps.policy, deps.drv, store, id, req'.body, req'.user, deps.isEmail, deps.now);
           Responded(h.reply, h.store))
      case RemoveOne(id) =>
        match RunChain(Chain(route), req, deps.verify)
        case Halt(reply) => Responded(reply, store)
        case Next(req') =>
          var h := DeleteUserById(deps.policy, deps.drv, store, id, req'.user);
          Responded(h.reply, h.store)
  }

  /** The whole router, the list route included. */
  method Dispatch(req: Request, store: Store, deps: Deps) returns (o: Outcome)
    ensures Match(req.verb, req.path) != Some(ListAll) ==> o == Serve(req, store, deps)
    ensures Match(req.verb, req.path) == Some(ListAll) ==> o.Responded? && o.store == store
    ensures Match(req.verb, req.path) == Some(ListAll) && deps.drv.Up? ==>
      && o.reply.Send? && o.reply.status == OK && o.reply.body.UsersBody?
      && o.reply.body.count == |o.reply.body.users|
      && Listing(o.reply.body.users, store)
  {
    o := Serve(req, store, deps);
    if o.ScanAll? {
      var reply := FetchAllUsers(deps.drv, store);
      o := Responded(reply, store);
    }
  }

  // ---------------------------------------------------------------------------
  // Properties of the composition

  /** GET /test-db reaches the probe, never the id route, in any letter case. */
  lemma TestDbShadowsId(s: string)
    requires SegmentIs(s, "test-db")
    ensures Match(Get, [s]) == Some(TestDb)
    ensures Match(Get, ["test-db"]) == Some(TestDb)
  {
  }

  /** The read routes have no authentication in front of them. */
  lemma ReadRoutesAreOpen(id: string, req: Request, verify: string -> Option<Identity>)
    ensures Chain(ListAll) == [] && Chain(FetchOne(id)) == []
    ensures RunChain(Chain(FetchOne(id)), req, verify) == Next(req)
  {
  }

  /** A missing or empty token on PUT is refused with 401 before the
      handler runs; the answer does not depend on the table, so it does not
      reveal whether the user exists. */
  lemma {:induction false} PutWithoutTokenIs401(req: Request, s1: Store, s2: Store, deps: Deps)
    requires req.verb == Put && |req.path| == 1 && req.path[0] != ""
    requires NoToken(req) || deps.verify(req.token.value).None?
    ensures Serve(req, s1, deps).Responded? && Serve(req, s1, deps).store == s1
    ensures Serve(req, s1, deps).reply.Send? && Serve(req, s1, deps).reply.status == UNAUTHORIZED
    ensures Serve(req, s1, deps).reply == Serve(req, s2, deps).reply
  {
  }

  /** Through the router, the delete handler always sees an admin identity,
      so it never fails for want of one. */
  lemma {:induction false} RoutedDeleteHasIdentity(req: Request, store: Store, deps: Deps)
    requires Match(req.verb, req.path).Some? && Match(req.verb, req.path).value.RemoveOne?
    ensures Serve(req, store, deps).Responded?
    ensures Serve(req, store, deps).reply != Forward(NO_USER_TYPE_ERROR)
  {
    var id := Match(req.verb, req.path).value.id;
    DeleteChainAdmitsAdminsOnly(id, req, deps.verify);
    match RunChain(Chain(RemoveOne(id)), req, deps.verify)
    case Halt(_) =>
    case Next(req') =>
      assert req'.user.Some?;
      if ParseId(id).Ok? {
        var pid := ParseId(id).value;
        var r := DeleteUser(deps.drv, store, pid);
        if req'.user.value.id != pid && r.Err? {
          ServiceErrorsArePrefixed(deps.drv, store, pid, Fields(None, None, None), deps.now);
          assert r.error.message[0] == 'F' && NO_USER_TYPE_ERROR[0] == 'C';
        }
      }
  }

  /** Through the router, the update handler's own 401 never fires: the
      token check in front of it already attached an identity. */
  lemma {:induction false} RoutedUpdateHasIdentity(req: Request, store: Store, deps: Deps)
    requires Match(req.verb, req.path).Some? && Match(req.verb, req.path).value.UpdateOne?
    ensures Serve(req, store, deps).Responded?
    ensures Serve(req, store, deps).reply !=
      Send(UNAUTHORIZED, ErrorBody("Authentication required", "You must be logged in to update user information"))
  {
    var id := Match(req.verb, req.path).value.id;
    UpdateChainAuthenticates(id, req, deps.verify);
  }

  // ---------------------------------------------------------------------------
  // End-to-end scenarios

  /** The path segment "7" is the id 7. */
  lemma SevenIsId()
    ensures ParseId("7") == Ok(7)
  {
    assert IsDigit("7"[0]);
    assert DecimalValue("7") == DecimalValue("") * 10 + DigitValue('7');
  }

  lemma ThreeIsId()
    ensures ParseId("3") == Ok(3)
  {
    assert IsDigit("3"[0]);
    assert DecimalValue("3") == DecimalValue("") * 10 + DigitValue('3');
  }

  /** A user renaming themselves: 200 with the new name and the old role. */
  lemma {:induction false} RenameSelf(store: Store, deps: Deps, token: string, email: string)
    requires 7 in store && deps.drv.Up?
    requires token != "" && deps.verify(token) == Some(Identity(7, email, "user"))
    ensures var o := Serve(Request(Put, ["7"], Some(token), None, Object(map["name" := Str("Ada")])), store, deps);
      && o.Responded? && o.reply.Send? && o.reply.status == OK && o.reply.body.UserBody?
      && o.reply.body.user.name == "Ada" && o.reply.body.user.role == store[7].role
  {
    var body := Object(map["name" := Str("Ada")]);
    var req := Request(Put, ["7"], Some(token), None, body);
    var actor := Some(Identity(7, email, "user"));
    UpdateChainAuthenticates("7", req, deps.verify);
    assert Match(Put, ["7"]) == Some(UpdateOne("7"));
    assert RunChain(Chain(UpdateOne("7")), req, deps.verify) == Next(req.(user := actor));
    RenameSelfHandled(deps.policy, deps.drv, store, deps.isEmail, deps.now, email);
  }

  /** The update handler's part of `RenameSelf`. */
  lemma {:induction false} RenameSelfHandled(policy: Catching, drv: Driver, store: Store, isEmail: string -> bool,
                                             now: Time, email: string)
    requires 7 in store && drv.Up?
    ensures UpdateUserById(policy, drv, store, "7", Object(map["name" := Str("Ada")]), Some(Identity(7, email, "user")), isEmail, now).reply
         == Send(OK, UserBody("User updated successfully", Merge(store[7], Fields(Some("Ada"), None, None), now)))
  {
    var body := Object(map["name" := Str("Ada")]);
    var actor := Some(Identity(7, email, "user"));
    var f := Fields(Some("Ada"), None, None);
    SevenIsId();
    AdaBody(isEmail);
    assert Authorize(7, f, actor) == None;
    assert UpdateRefusal("7", body, actor, isEmail) == None;
    assert UpdateUser(drv, store, 7, f, now).Ok?;
  }

  /** The body {"name":"Ada"} parses to a rename and nothing else. */
  lemma {:induction false} AdaBody(isEmail: string -> bool)
    ensures ParseUpdate(Object(map["name" := Str("Ada")]), isEmail) == Ok(Fields(Some("Ada"), None, None))
  {
    var fields := map["name" := Str("Ada")];
    assert Lookup(fields, "name") == Some(Str("Ada"));
    assert Lookup(fields, "email") == None && Lookup(fields, "role") == None;
    assert NameAcceptable("Ada") by {
      assert Utf16Length("Ada") == 3;
    }
    assert Trim("Ada") == "Ada" by {
      assert !IsSpace("Ada"[0]) && !IsSpace("Ada"[|"Ada"| - 1]);
    }
    assert FieldsAcceptable(fields, isEmail) && HasUpdateKey(fields);
  }

  /** A user granting themselves the admin role: 403. */
  lemma {:induction false} SelfPromotionRefused(store: Store, deps: Deps, token: string, email: string)
    requires token != "" && deps.verify(token) == Some(Identity(7, email, "user"))
    ensures Serve(Request(Put, ["7"], Some(token), None, Object(map["role" := Str("admin")])), store, deps)
         == Responded(Send(FORBIDDEN, ErrorBody("Access denied", "Only administrators can change user roles")), store)
  {
    SevenIsId();
    var body := Object(map["role" := Str("admin")]);
    assert ParseUpdate(body, deps.isEmail).Ok?;
    UpdateChainAuthenticates("7", Request(Put, ["7"], Some(token), None, body), deps.verify);
  }

  /** An admin deleting their own account: 400, whatever the table holds. */
  lemma {:induction false} AdminSelfDelete(store: Store, deps: Deps, token: string, email: string)
    requires token != "" && deps.verify(token) == Some(Identity(3, email, "admin"))
    ensures Serve(Request(Delete, ["3"], Some(token), None, NotObject), store, deps)
         == Responded(Send(BAD_REQUEST, ErrorBody("Invalid operation", "Administrators cannot delete their own account")), store)
  {
    ThreeIsId();
    DeleteChainAdmitsAdminsOnly("3", Request(Delete, ["3"], Some(token), None, NotObject), deps.verify);
  }

  /** With the corrected catch blocks, fetching a missing id answers 404
      with the fixed error shape. */
  lemma {:induction false} MissingUserIs404(req: Request, store: Store, deps: Deps)
    requires IsGet(req.verb) && |req.path| == 1 && IdAcceptable(req.path[0])
    requires deps.drv.Up? && ParseId(req.path[0]).value !in store && deps.policy == ByKind
    ensures Serve(req, store, deps) == Responded(Send(NOT_FOUND_STATUS, NOT_FOUND_BODY), store)
  {
    var s := req.path[0];
    assert !SegmentIs(s, "test-db") by {
      assert IsDigit(s[0]) && LowerCase(s)[0] == s[0];
      assert !IsDigit("test-db"[0]);
    }
    CorrectedFetch404Iff(deps.drv, store, s);
  }

  /** With the catch blocks as written, the same request is handed to
      `next` with the wrapped message. */
  lemma {:induction false} MissingUserAsWritten(req: Request, store: Store, deps: Deps)
    requires IsGet(req.verb) && |req.path| == 1 && IdAcceptable(req.path[0])
    requires deps.drv.Up? && ParseId(req.path[0]).value !in store && deps.policy == ByMessage
    ensures Serve(req, store, deps) == Responded(Forward("Failed to fetch user: User not found"), store)
  {
    var s := req.path[0];
    assert !SegmentIs(s, "test-db") by {
      assert IsDigit(s[0]) && LowerCase(s)[0] == s[0];
      assert !IsDigit("test-db"[0]);
    }
    AsWrittenMissingFetch(store, s);
  }
}

=== FILE: security.dfy ===
/** The security guard: a role-tiered rate-limit rule is handed to an
    external bot/attack/rate-limit engine, and the engine's verdict is
    turned into 403, 429 or `next()`. The engine is a parameter
    `decide(rule)`; `Threw` stands for any exception inside the guard. */
module Security {
  import opened Values
  import opened Text
  import opened Users
  import opened Http

  /** Why the engine denied a request. */
  datatype Reason = Bot | Shield | RateLimit | OtherReason

  /** The engine's decision. */
  datatype Verdict = Allow | Deny(reason: Reason)

  /** The engine's answer, or an exception raised while obtaining it. */
  datatype Engine = Decided(verdict: Verdict) | Threw

  /** Whether the engine enforces a rule or only logs it. */
  datatype Mode = DryRun | Live

  /** The sliding-window rule the guard adds for the request's tier. An
      unknown role leaves `max` undefined. */
  datatype Rule = SlidingWindow(mode: Mode, interval: string, max: Option<nat>, name: string)

  /** A tier: the request limit per minute and the message sent when it is
      exceeded; both undefined for a role outside the table. */
  datatype Tier = Tier(limit: Option<nat>, message: Option<string>)

  /** Development mode holds only when NODE_ENV is exactly "development". */
  predicate IsDevelopment(nodeEnv: Option<string>) {
    nodeEnv == Some("development")
  }

  /** `req.user?.role || 'guest'`: the identity's role when it is a
      non-empty string, otherwise "guest". */
  function GuardRole(user: Option<Identity>): (role: string)
    ensures role != ""
    ensures user.Some? && user.value.role != "" ==> role == user.value.role
    ensures user.None? || user.value.role == "" ==> role == "guest"
  {
    if user.Some? && user.value.role != "" then user.value.role else "guest"
  }

  /** The three roles the tier table knows. */
  predicate KnownRole(role: string) {
    role == "admin" || role == "user" || role == "guest"
  }

  /** The capitalised role at the head of a limit message. */
  function RoleLabel(role: string): string
    requires KnownRole(role)
  {
    if role == "admin" then "Admin" else if role == "user" then "User" else "Guest"
  }

  /** The shape every limit message has: it names the same number as the
      limit and the per-minute window. */
  function LimitMessage(who: string, n: nat): string {
    who + " request limit exceeded (" + DecimalString(n) + PER_MINUTE
  }

  /** The common tail of the limit messages. */
  const PER_MINUTE := " per minute). Slow down."

  /** The production allowance per role. */
  function ProductionLimit(role: string): nat
    requires KnownRole(role)
  {
    if role == "admin" then 20 else if role == "user" then 10 else 5
  }

  /** The tier table. Development allows five times the production limit;
      each message names its limit; any other role gets neither. */
  function TierFor(dev: bool, role: string): (t: Tier)
    ensures t.limit.Some? <==> KnownRole(role)
    ensures t.message.Some? <==> KnownRole(role)
    ensures KnownRole(role) ==> t.limit.value == (if dev then 5 else 1) * ProductionLimit(role)
    ensures KnownRole(role) ==> t.message.value == LimitMessage(RoleLabel(role), t.limit.value)
  {
    if dev then
      if role == "admin" then
        AdminDevMessage();
        Tier(Some(100), Some("Admin request limit exceeded (100" + PER_MINUTE))
      else if role == "user" then
        UserDevMessage();
        Tier(Some(50), Some("User request limit exceeded (50" + PER_MINUTE))
      else if role == "guest" then
        GuestDevMessage();
        Tier(Some(25), Some("Guest request limit exceeded (25" + PER_MINUTE))
      else Tier(None, None)
    else
      if role == "admin" then
        AdminProdMessage();
        Tier(Some(20), Some("Admin request limit exceeded (20" + PER_MINUTE))
      else if role == "user" then
        UserProdMessage();
        Tier(Some(10), Some("User request limit exceeded (10" + PER_MINUTE))
      else if role == "guest" then
        GuestProdMessage();
        Tier(Some(5), Some("Guest request limit exceeded (5" + PER_MINUTE))
      else Tier(None, None)
  }

  /** The decimal spellings of the six limits. */
  lemma LimitSpellings()
    ensures DecimalString(5) == "5" && DecimalString(10) == "10" && DecimalString(20) == "20"
    ensures DecimalString(25) == "25" && DecimalString(50) == "50" && DecimalString(100) == "100"
  {
    assert DecimalString(1) == "1" && DecimalString(2) == "2" && DecimalString(5) == "5";
    assert DecimalString(10) == DecimalString(1) + "0";
    assert DecimalString(20) == DecimalString(2) + "0";
    assert DecimalString(25) == DecimalString(2) + "5";
    assert DecimalString(50) == DecimalString(5) + "0";
    assert DecimalString(100) == DecimalString(10) + "0";
  }

  /** The six limit messages spelled out, each naming its limit. */
  lemma AdminDevMessage()
    ensures LimitMessage("Admin", 100) == "Admin request limit exceeded (100" + PER_MINUTE
  {
    LimitSpellings();
    assert "Admin" + " request limit exceeded (" + "100" == "Admin request limit exceeded (100";
  }

  lemma UserDevMessage()
    ensures LimitMessage("User", 50) == "User request limit exceeded (50" + PER_MINUTE
  {
    LimitSpellings();
    assert "User" + " request limit exceeded (" + "50" == "User request limit exceeded (50";
  }

  lemma GuestDevMessage()
    ensures LimitMessage("Guest", 25) == "Guest request limit exceeded (25" + PER_MINUTE
  {
    LimitSpellings();
    assert "Guest" + " request limit exceeded (" + "25" == "Guest request limit exceeded (25";
  }

  lemma AdminProdMessage()
    ensures LimitMessage("Admin", 20) == "Admin request limit exceeded (20" + PER_MINUTE
  {
    LimitSpellings();
    assert "Admin" + " request limit exceeded (" + "20" == "Admin request limit exceeded (20";
  }

  lemma UserProdMessage()
    ensures LimitMessage("User", 10) == "User request limit exceeded (10" + PER_MINUTE
  {
    LimitSpellings();
    assert "User" + " request limit exceeded (" + "10" == "User request limit exceeded (10";
  }

  lemma GuestProdMessage()
    ensures LimitMessage("Guest", 5) == "Guest request limit exceeded (5" + PER_MINUTE
  {
    LimitSpellings();
    assert "Guest" + " request limit exceeded (" + "5" == "Guest request limit exceeded (5";
  }

  /** The rule the guard submits for a request: enforcing in production,
      dry-run in development, one-minute window, the tier's limit, and a
      name derived from the role. */
  function GuardRule(req: Request, nodeEnv: Option<string>): (r: Rule)
    ensures r.mode.Live? <==> !IsDevelopment(nodeEnv)
    ensures r.max == TierFor(IsDevelopment(nodeEnv), GuardRole(req.user)).limit
    ensures r.name == GuardRole(req.user) + "-rate-limit"
  {
    var dev := IsDevelopment(nodeEnv);
    var role := GuardRole(req.user);
    SlidingWindow(if dev then DryRun else Live, "1m", TierFor(dev, role).limit, role + "-rate-limit")
  }

  /** The guard's policy, reason by reason: bot and shield denials are
      enforced only in production, rate-limit denials always, other
      denials never; an exception lets the request through only in
      development. */
  predicate Admits(dev: bool, e: Engine) {
    match e
    case Threw => dev
    case Decided(Allow) => true
    case Decided(Deny(Bot)) => dev
    case Decided(Deny(Shield)) => dev
    case Decided(Deny(RateLimit)) => false
    case Decided(Deny(OtherReason)) => true
  }

  /** The status a refused request gets. */
  function RefusalStatus(e: Engine): nat {
    match e
    case Threw => SERVER_ERROR
    case Decided(Deny(RateLimit)) => TOO_MANY
    case _ => FORBIDDEN
  }

  /** `securityMiddleware`. */
  function Guard(req: Request, nodeEnv: Option<string>, decide: Rule -> Engine): (s: Step)
    ensures s.Next? <==> Admits(IsDevelopment(nodeEnv), decide(GuardRule(req, nodeEnv)))
    ensures s.Next? ==> s.request == req
    ensures s.Halt? ==> s.reply.Send? && s.reply.status == RefusalStatus(decide(GuardRule(req, nodeEnv)))
    ensures decide(GuardRule(req, nodeEnv)) == Decided(Deny(RateLimit)) ==>
      s == Halt(Send(TOO_MANY, LimitBody("Too Many Requests",
                                         TierFor(IsDevelopment(nodeEnv), GuardRole(req.user)).message)))
  {
    var dev := IsDevelopment(nodeEnv);
    var tier := TierFor(dev, GuardRole(req.user));
    match decide(GuardRule(req, nodeEnv))
    case Threw =>
      if dev then Next(req)
      else Halt(Send(SERVER_ERROR, ErrorBody("Internal server error", "Something went wrong with security middleware")))
    case Decided(v) =>
      if v.Deny? && v.reason.Bot? && !dev then
        Halt(Send(FORBIDDEN, ErrorBody("Forbidden", "Automated requests are not allowed.")))
      else if v.Deny? && v.reason.Shield? && !dev then
        Halt(Send(FORBIDDEN, ErrorBody("Forbidden", "Request blocked by security policy.")))
      else if v.Deny? && v.reason.RateLimit? then
        Halt(Send(TOO_MANY, LimitBody("Too Many Requests", tier.message)))
      else
        Next(req)
  }

  /** Bot and shield denials in production carry their own messages. */
  lemma ProductionDenialMessages(req: Request, nodeEnv: Option<string>, decide: Rule -> Engine)
    requires !IsDevelopment(nodeEnv)
    ensures decide(GuardRule(req, nodeEnv)) == Decided(Deny(Bot)) ==>
      Guard(req, nodeEnv, decide) == Halt(Send(FORBIDDEN, ErrorBody("Forbidden", "Automated requests are not allowed.")))
    ensures decide(GuardRule(req, nodeEnv)) == Decided(Deny(Shield)) ==>
      Guard(req, nodeEnv, decide) == Halt(Send(FORBIDDEN, ErrorBody("Forbidden", "Request blocked by security policy.")))
    ensures decide(GuardRule(req, nodeEnv)) == Threw ==>
      Guard(req, nodeEnv, decide) == Halt(Send(SERVER_ERROR, ErrorBody("Internal server error", "Something went wrong with security middleware")))
  {
  }

  /** Development is never stricter than production: whatever production
      lets through for the same verdict, development lets through too. */
  lemma DevelopmentIsLenient(e: Engine)
    ensures Admits(false, e) ==> Admits(true, e)
    ensures Admits(true, e) && !Admits(false, e) <==> e in {Threw, Decided(Deny(Bot)), Decided(Deny(Shield))}
  {
  }

  /** A guest over the production limit is told the guest limit of 5. */
  lemma GuestOverProductionLimit(req: Request, nodeEnv: Option<string>, decide: Rule -> Engine)
    requires req.user.None?
    requires !IsDevelopment(nodeEnv)
    requires decide(GuardRule(req, nodeEnv)) == Decided(Deny(RateLimit))
    ensures GuardRule(req, nodeEnv) == SlidingWindow(Live, "1m", Some(5), "guest-rate-limit")
    ensures Guard(req, nodeEnv, decide) ==
      Halt(Send(TOO_MANY, LimitBody("Too Many Requests", Some("Guest request limit exceeded (5" + PER_MINUTE))))
  {
    GuestProdMessage();
  }
}

=== FILE: services.dfy ===
/** The user repository: the four queries against the users table. Each
    operation catches whatever its body throws and rethrows an error whose
    message is its own "Failed to …: " prefix followed by the caught message. */
module Services {
  import opened Values
  import opened Text
  import opened Users

  /** The state of the database driver for one request: every query either
      runs, or fails with the driver's message. */
  datatype Driver = Up | Down(message: string)

  /** An error as it leaves a service function. The source's errors carry
      only `message`; `notFound` records, in addition, whether the error
      originated in the missing-row check (the distinguished not-found kind
      the corrected handlers consult). */
  datatype Error = Error(message: string, notFound: bool)

  const NOT_FOUND := "User not found"
  const LIST_PREFIX := "Failed to fetch users: "
  const FETCH_PREFIX := "Failed to fetch user: "
  const UPDATE_PREFIX := "Failed to update user: "
  const DELETE_PREFIX := "Failed to delete user: "

  /** The driver's text for a write that breaks the unique email constraint.
      Its exact wording belongs to the database; the model relies only on it
      being an ordinary (not not-found) error. */
  const DUPLICATE_EMAIL := "duplicate key value violates unique constraint"

  /** The catch-and-rethrow every service function ends with. */
  function Rethrow(prefix: string, e: Error): (r: Error)
    ensures StartsWith(prefix, r.message)
    ensures r.message[|prefix|..] == e.message
    ensures r.notFound == e.notFound
  {
    Error(prefix + e.message, e.notFound)
  }

  /** `rows` lists the table: one row per stored user, each a stored row. */
  ghost predicate Listing(rows: seq<User>, store: Store) {
    && |rows| == |store|
    && (forall i :: 0 <= i < |rows| ==> rows[i] in store.Values)
    && (forall k :: k in store ==> store[k] in rows)
  }

  /** `getAllUsers`: every stored user, in the order the database returns
      them, which a query without ORDER BY leaves unspecified. */
  method GetAllUsers(drv: Driver, store: Store) returns (r: Result<seq<User>, Error>)
    ensures r.Ok? <==> drv.Up?
    ensures r.Ok? ==> Listing(r.value, store)
    ensures r.Ok? && KeysMatch(store) ==>
      forall i, j :: 0 <= i < j < |r.value| ==> r.value[i].id != r.value[j].id
    ensures r.Err? ==> r.error == Error(LIST_PREFIX + drv.message, false)
  {
    if drv.Down? {
      return Err(Rethrow(LIST_PREFIX, Error(drv.message, false)));
    }
    var left := store.Keys;
    var rows: seq<User> := [];
    var ids: seq<nat> := [];
    while left != {}
      invariant left <= store.Keys
      invariant |ids| == |rows|
      invariant |rows| + |left| == |store|
      invariant forall i :: 0 <= i < |ids| ==> ids[i] in store && ids[i] !in left && rows[i] == store[ids[i]]
      invariant forall i, j :: 0 <= i < j < |ids| ==> ids[i] != ids[j]
      invariant forall k :: k in store && k !in left ==> k in ids
      decreases left
    {
      var k :| k in left;
      rows := rows + [store[k]];
      ids := ids + [k];
      left := left - {k};
    }
    forall k | k in store
      ensures store[k] in rows
    {
      var i :| 0 <= i < |ids| && ids[i] == k;
      assert rows[i] == store[k];
    }
    return Ok(rows);
  }

  /** `getUserById`: the stored row, or the rethrown not-found error. */
  function GetUserById(drv: Driver, store: Store, id: nat): (r: Result<User, Error>)
    ensures r.Ok? <==> drv.Up? && id in store
    ensures r.Ok? ==> r.value == store[id]
    ensures r.Err? ==> StartsWith(FETCH_PREFIX, r.error.message)
    ensures drv.Down? ==> r == Err(Error(FETCH_PREFIX + drv.message, false))
    ensures r.Err? ==> (r.error.notFound <==> drv.Up?)
  {
    match drv
    case Down(m) => Err(Rethrow(FETCH_PREFIX, Error(m, false)))
    case Up =>
      if id in store then Ok(store[id]) else Err(Rethrow(FETCH_PREFIX, Error(NOT_FOUND, true)))
  }

  /** Some other row than `id` already has `email`. */
  predicate EmailTaken(store: Store, id: nat, email: string) {
    exists k :: k in store && k != id && store[k].email == email
  }

  /** A new table together with a value an operation returns. */
  datatype Change<T> = Change(value: T, store: Store)

  /** `updateUser`: the existence check through `getUserById`, then the
      write of the supplied fields and the clock value `now`. */
  function UpdateUser(drv: Driver, store: Store, id: nat, f: Fields, now: Time): (r: Result<Change<User>, Error>)
    ensures r.Ok? <==> drv.Up? && id in store && !(f.email.Some? && EmailTaken(store, id, f.email.value))
    ensures r.Ok? ==> r.value.value == Merge(store[id], f, now)
    ensures r.Ok? ==> r.value.store == store[id := r.value.value]
    ensures r.Err? ==> StartsWith(UPDATE_PREFIX, r.error.message)
    ensures drv.Down? ==> r == Err(Error(UPDATE_PREFIX + (FETCH_PREFIX + drv.message), false))
    ensures r.Err? ==> (r.error.notFound <==> drv.Up? && id !in store)
  {
    match GetUserById(drv, store, id)
    case Err(e) => Err(Rethrow(UPDATE_PREFIX, e))
    case Ok(existing) =>
      if f.email.Some? && EmailTaken(store, id, f.email.value) then
        Err(Rethrow(UPDATE_PREFIX, Error(DUPLICATE_EMAIL, false)))
      else
        var row := Merge(existing, f, now);
        Ok(Change(row, store[id := row]))
  }

  /** The columns a delete returns. */
  function Project(u: User): Deleted
  {
    Deleted(u.id, u.email, u.name, u.role)
  }

  /** `deleteUser`: the existence check through `getUserById`, then the
      removal of that one row. */
  function DeleteUser(drv: Driver, store: Store, id: nat): (r: Result<Change<Deleted>, Error>)
    ensures r.Ok? <==> drv.Up? && id in store
    ensures r.Ok? ==> r.value.value == Project(store[id])
    ensures r.Ok? ==> r.value.store == store - {id}
    ensures r.Err? ==> StartsWith(DELETE_PREFIX, r.error.message)
    ensures drv.Down? ==> r == Err(Error(DELETE_PREFIX + (FETCH_PREFIX + drv.message), false))
    ensures r.Err? ==> (r.error.notFound <==> drv.Up?)
  {
    match GetUserById(drv, store, id)
    case Err(e) => Err(Rethrow(DELETE_PREFIX, e))
    case Ok(existing) => Ok(Change(Project(existing), store - {id}))
  }

  // ---------------------------------------------------------------------------
  // Properties

  /** The not-found messages spelled out, one wrapper at a time. */
  lemma FetchNotFoundText()
    ensures FETCH_PREFIX + NOT_FOUND == "Failed to fetch user: User not found"
  {
  }

  lemma UpdateNotFoundText()
    ensures UPDATE_PREFIX + (FETCH_PREFIX + NOT_FOUND) == "Failed to update user: Failed to fetch user: User not found"
  {
  }

  lemma DeleteNotFoundText()
    ensures DELETE_PREFIX + (FETCH_PREFIX + NOT_FOUND) == "Failed to delete user: Failed to fetch user: User not found"
  {
  }

  /** A missing id fails with these exact messages, one wrapper per service
      function the error passes through. */
  lemma {:induction false} MissingIdMessages(store: Store, id: nat, f: Fields, now: Time)
    requires id !in store
    ensures GetUserById(Up, store, id) == Err(Error("Failed to fetch user: User not found", true))
    ensures UpdateUser(Up, store, id, f, now) == Err(Error("Failed to update user: Failed to fetch user: User not found", true))
    ensures DeleteUser(Up, store, id) == Err(Error("Failed to delete user: Failed to fetch user: User not found", true))
  {
    FetchNotFoundText();
    UpdateNotFoundText();
    DeleteNotFoundText();
    var e := Error(FETCH_PREFIX + NOT_FOUND, true);
    assert GetUserById(Up, store, id) == Err(e);
    assert UpdateUser(Up, store, id, f, now) == Err(Error(UPDATE_PREFIX + e.message, true));
    assert DeleteUser(Up, store, id) == Err(Error(DELETE_PREFIX + e.message, true));
  }

  /** Every error leaving a service function starts with "Failed to ", so
      none of them is the bare "User not found". */
  lemma {:induction false} ServiceErrorsArePrefixed(drv: Driver, store: Store, id: nat, f: Fields, now: Time)
    ensures GetUserById(drv, store, id).Err? ==> StartsWith("Failed to ", GetUserById(drv, store, id).error.message)
    ensures UpdateUser(drv, store, id, f, now).Err? ==> StartsWith("Failed to ", UpdateUser(drv, store, id, f, now).error.message)
    ensures DeleteUser(drv, store, id).Err? ==> StartsWith("Failed to ", DeleteUser(drv, store, id).error.message)
    ensures GetUserById(drv, store, id).Err? ==> GetUserById(drv, store, id).error.message != NOT_FOUND
    ensures UpdateUser(drv, store, id, f, now).Err? ==> UpdateUser(drv, store, id, f, now).error.message != NOT_FOUND
    ensures DeleteUser(drv, store, id).Err? ==> DeleteUser(drv, store, id).error.message != NOT_FOUND
  {
    FailedToPrefix(FETCH_PREFIX, GetUserById(drv, store, id));
    FailedToPrefix(UPDATE_PREFIX, UpdateUser(drv, store, id, f, now));
    FailedToPrefix(DELETE_PREFIX, DeleteUser(drv, store, id));
  }

  lemma FailedToPrefix<T>(q: string, r: Result<T, Error>)
    requires StartsWith("Failed to ", q)
    requires r.Err? ==> StartsWith(q, r.error.message)
    ensures r.Err? ==> StartsWith("Failed to ", r.error.message) && r.error.message != NOT_FOUND
  {
    if r.Err? {
      var m := r.error.message;
      assert m[..10] == m[..|q|][..10];
      assert m[0] == 'F' && NOT_FOUND[0] == 'U';
    }
  }

  /** A successful update rewrites only the target row and keeps the
      table's constraints. */
  lemma {:induction false} UpdatePreservesValid(drv: Driver, store: Store, id: nat, f: Fields, now: Time)
    requires Valid(store)
    requires UpdateUser(drv, store, id, f, now).Ok?
    ensures Valid(UpdateUser(drv, store, id, f, now).value.store)
    ensures UpdateUser(drv, store, id, f, now).value.store.Keys == store.Keys
    ensures forall k :: k in store && k != id ==> UpdateUser(drv, store, id, f, now).value.store[k] == store[k]
  {
    var s' := UpdateUser(drv, store, id, f, now).value.store;
    var row := s'[id];
    forall a, b | a in s' && b in s' && a != b
      ensures s'[a].email != s'[b].email
    {
      if a == id || b == id {
        var other := if a == id then b else a;
        if f.email.Some? {
          assert !EmailTaken(store, id, f.email.value);
          assert store[other].email != f.email.value;
        }
      }
    }
  }

  /** Repeating a successful update leaves the same stored fields; only
      `updated_at` differs between the two results. */
  lemma {:induction false} UpdateIdempotent(store: Store, id: nat, f: Fields, t1: Time, t2: Time)
    requires UpdateUser(Up, store, id, f, t1).Ok?
    ensures UpdateUser(Up, UpdateUser(Up, store, id, f, t1).value.store, id, f, t2).Ok?
    ensures UpdateUser(Up, UpdateUser(Up, store, id, f, t1).value.store, id, f, t2)
         == UpdateUser(Up, store, id, f, t2)
  {
    var s1 := UpdateUser(Up, store, id, f, t1).value.store;
    MergeIdempotent(store[id], f, t1, t2);
    assert s1[id := Merge(s1[id], f, t2)] == store[id := Merge(store[id], f, t2)];
  }

  /** A successful delete removes exactly the target row and keeps the
      table's constraints. */
  lemma {:induction false} DeletePreservesValid(drv: Driver, store: Store, id: nat)
    requires Valid(store)
    requires DeleteUser(drv, store, id).Ok?
    ensures Valid(DeleteUser(drv, store, id).value.store)
    ensures DeleteUser(drv, store, id).value.store.Keys == store.Keys - {id}
    ensures |DeleteUser(drv, store, id).value.store| == |store| - 1
  {
    var s' := DeleteUser(drv, store, id).value.store;
    assert s'.Keys == store.Keys - {id};
  }
}

=== FILE: text.dfy ===
/** String operations with the JavaScript meaning the validators rely on:
    the `\d` class of a regular expression, `Number()` on a digit string,
    `String.prototype.trim` and `String.prototype.toLowerCase`. */
module Text {

  /** `s` begins with `prefix`. */
  predicate StartsWith(prefix: string, s: string) {
    |prefix| <= |s| && s[..|prefix|] == prefix
  }

  // ---------------------------------------------------------------------------
  // Decimal digits

  /** Membership in the regular-expression class `\d`, which is exactly '0'..'9'. */
  predicate IsDigit(c: char) {
    '0' <= c <= '9'
  }

  /** Every character of `s` is a decimal digit (true of the empty string). */
  predicate AllDigits(s: string) {
    forall i :: 0 <= i < |s| ==> IsDigit(s[i])
  }

  /** The value of one digit character. */
  function DigitValue(c: char): (d: nat)
    requires IsDigit(c)
    ensures d < 10
  {
    c as int - '0' as int
  }

  /** The character of one digit value. */
  function DigitChar(d: nat): (c: char)
    requires d < 10
    ensures IsDigit(c) && DigitValue(c) == d
  {
    ('0' as int + d) as char
  }

  /** The number a digit string denotes, read most significant digit first;
      leading zeros contribute nothing. */
  function DecimalValue(s: string): nat
    requires AllDigits(s)
  {
    if |s| == 0 then 0 else 10 * DecimalValue(s[..|s| - 1]) + DigitValue(s[|s| - 1])
  }

  /** The canonical decimal spelling of `n`, as JavaScript prints a
      non-negative integer: no sign, no leading zero. */
  function DecimalString(n: nat): (s: string)
    ensures |s| > 0 && AllDigits(s)
    ensures |s| > 1 ==> s[0] != '0'
    ensures DecimalValue(s) == n
  {
    if n < 10 then [DigitChar(n)]
    else
      var s := DecimalString(n / 10) + [DigitChar(n % 10)];
      assert s[..|s| - 1] == DecimalString(n / 10);
      s
  }

  /** Prepending a zero does not change the value of a digit string. */
  lemma {:induction false} LeadingZeroIgnored(s: string)
    requires AllDigits(s)
    ensures AllDigits("0" + s)
    ensures DecimalValue("0" + s) == DecimalValue(s)
  {
    var t := "0" + s;
    if |s| > 0 {
      assert t[..|t| - 1] == "0" + s[..|s| - 1];
      LeadingZeroIgnored(s[..|s| - 1]);
    } else {
      assert t[..|t| - 1] == "";
    }
  }

  // ---------------------------------------------------------------------------
  // Length

  /** A character outside the Basic Multilingual Plane, which UTF-16 stores
      as a surrogate pair. */
  predicate IsAstral(c: char) {
    c as int > 0xFFFF
  }

  /** JavaScript's `length`: the number of UTF-16 code units, one per
      character of the Basic Multilingual Plane and two per other character. */
  function Utf16Length(s: string): (n: nat)
    ensures |s| <= n <= 2 * |s|
    ensures (forall i :: 0 <= i < |s| ==> !IsAstral(s[i])) ==> n == |s|
    ensures (forall i :: 0 <= i < |s| ==> IsAstral(s[i])) ==> n == 2 * |s|
  {
    if |s| == 0 then 0 else (if IsAstral(s[0]) then 2 else 1) + Utf16Length(s[1..])
  }

  // ---------------------------------------------------------------------------
  // Whitespace and trimming

  /** ECMAScript WhiteSpace or LineTerminator: the characters `trim` removes. */
  predicate IsSpace(c: char) {
    || c == '\t' || c == '\n' || c == '\U{000B}' || c == '\U{000C}' || c == '\r'
    || c == ' ' || c == '\U{00A0}' || c == '\U{1680}'
    || ('\U{2000}' <= c <= '\U{200A}')
    || c == '\U{2028}' || c == '\U{2029}' || c == '\U{202F}' || c == '\U{205F}'
    || c == '\U{3000}' || c == '\U{FEFF}'
  }

  /** `s` without its leading whitespace: a suffix of `s` whose removed
      part is all whitespace and which does not itself start with whitespace. */
  function TrimStart(s: string): (r: string)
    ensures |r| <= |s| && r == s[|s| - |r|..]
    ensures forall i :: 0 <= i < |s| - |r| ==> IsSpace(s[i])
    ensures |r| > 0 ==> !IsSpace(r[0])
  {
    if |s| > 0 && IsSpace(s[0]) then TrimStart(s[1..]) else s
  }

  /** `s` without its trailing whitespace: a prefix of `s` whose removed
      part is all whitespace and which does not itself end with whitespace. */
  function TrimEnd(s: string): (r: string)
    ensures |r| <= |s| && r == s[..|r|]
    ensures forall i :: |r| <= i < |s| ==> IsSpace(s[i])
    ensures |r| > 0 ==> !IsSpace(r[|r| - 1])
  {
    if |s| > 0 && IsSpace(s[|s| - 1]) then TrimEnd(s[..|s| - 1]) else s
  }

  /** `s` is `r` with whitespace around it: `r` starts at index `i` of `s`,
      and every character of `s` before or after it is whitespace. */
  predicate Padded(s: string, i: nat, r: string) {
    && i + |r| <= |s|
    && r == s[i..i + |r|]
    && (forall k :: 0 <= k < i ==> IsSpace(s[k]))
    && (forall k :: i + |r| <= k < |s| ==> IsSpace(s[k]))
  }

  /** `String.prototype.trim`: whitespace removed at both ends. The result
      is a slice of `s` with only whitespace around it, it neither starts
      nor ends with whitespace, and `s` is left as it is exactly when it
      already had that shape. */
  function Trim(s: string): (r: string)
    ensures |r| <= |s|
    ensures exists i :: Padded(s, i, r)
    ensures |r| > 0 ==> !IsSpace(r[0]) && !IsSpace(r[|r| - 1])
    ensures r == s <==> |s| == 0 || (!IsSpace(s[0]) && !IsSpace(s[|s| - 1]))
  {
    TrimIsPadded(s);
    TrimKeeps(s);
    TrimEnd(TrimStart(s))
  }

  lemma {:induction false} TrimIsPadded(s: string)
    ensures Padded(s, |s| - |TrimStart(s)|, TrimEnd(TrimStart(s)))
  {
    TrimSlice(s);
    TrimSurround(s);
  }

  lemma {:induction false} TrimSlice(s: string)
    ensures TrimEnd(TrimStart(s)) == s[|s| - |TrimStart(s)|..|s| - |TrimStart(s)| + |TrimEnd(TrimStart(s))|]
  {
    var t := TrimStart(s);
    var r := TrimEnd(t);
    var i := |s| - |t|;
    assert t == s[i..];
    assert r == t[..|r|];
  }

  lemma {:induction false} TrimSurround(s: string)
    ensures forall k :: |s| - |TrimStart(s)| + |TrimEnd(TrimStart(s))| <= k < |s| ==> IsSpace(s[k])
  {
    var t := TrimStart(s);
    SuffixSpaces(s, t, |TrimEnd(t)|);
  }

  /** Whitespace at the end of a suffix `t` of `s` is whitespace at the end of `s`. */
  lemma SuffixSpaces(s: string, t: string, n: nat)
    requires |t| <= |s| && t == s[|s| - |t|..] && n <= |t|
    requires forall j :: n <= j < |t| ==> IsSpace(t[j])
    ensures forall k :: |s| - |t| + n <= k < |s| ==> IsSpace(s[k])
  {
    forall k | |s| - |t| + n <= k < |s|
      ensures IsSpace(s[k])
    {
      assert s[k] == t[k - (|s| - |t|)];
    }
  }

  lemma {:induction false} TrimKeeps(s: string)
    ensures |TrimEnd(TrimStart(s))| > 0 ==> TrimEnd(TrimStart(s))[0] == TrimStart(s)[0]
    ensures TrimEnd(TrimStart(s)) == s <==> |s| == 0 || (!IsSpace(s[0]) && !IsSpace(s[|s| - 1]))
  {
    var t := TrimStart(s);
    var r := TrimEnd(t);
    assert r == t[..|r|];
    if r == s {
      assert |t| == |s| && t == s;
    }
    if |s| > 0 && !IsSpace(s[0]) && !IsSpace(s[|s| - 1]) {
      assert t == s;
    }
  }

  /** Trimming twice is trimming once. */
  lemma TrimIdempotent(s: string)
    ensures Trim(Trim(s)) == Trim(s)
  {
  }

  // ---------------------------------------------------------------------------
  // Case

  /** The lower-case form of an ASCII letter; every other character maps to itself. */
  function LowerChar(c: char): (d: char)
    ensures 'A' <= c <= 'Z' ==> d as int == c as int + 32
    ensures !('A' <= c <= 'Z') ==> d == c
  {
    if 'A' <= c <= 'Z' then (c as int + 32) as char else c
  }

  /** `toLowerCase`, restricted to ASCII: same length, no upper-case ASCII
      letter left, and every character either kept or replaced by its
      lower-case letter. */
  function LowerCase(s: string): (r: string)
    ensures |r| == |s|
    ensures forall i :: 0 <= i < |r| ==> !('A' <= r[i] <= 'Z')
    ensures forall i :: 0 <= i < |r| ==> r[i] == s[i] || ('A' <= s[i] <= 'Z' && r[i] as int == s[i] as int + 32)
  {
    if |s| == 0 then [] else [LowerChar(s[0])] + LowerCase(s[1..])
  }

  /** Lower-casing changes no whitespace, so lower-casing then trimming (the
      order the email validator uses) equals trimming then lower-casing. */
  lemma {:induction false} LowerCaseCommutesWithTrim(s: string)
    ensures Trim(LowerCase(s)) == LowerCase(Trim(s))
  {
    LowerCaseKeepsSpaces(s);
    TrimStartLower(s);
    TrimEndLower(TrimStart(s));
  }

  lemma {:induction false} LowerCaseKeepsSpaces(s: string)
    ensures forall i :: 0 <= i < |s| ==> (IsSpace(LowerCase(s)[i]) <==> IsSpace(s[i]))
  {
  }

  lemma {:induction false} TrimStartLower(s: string)
    ensures TrimStart(LowerCase(s)) == LowerCase(TrimStart(s))
    decreases |s|
  {
    if |s| > 0 {
      var l := LowerCase(s);
      assert l[0] == LowerChar(s[0]) && l[1..] == LowerCase(s[1..]);
      assert IsSpace(l[0]) <==> IsSpace(s[0]);
      if IsSpace(s[0]) {
        assert TrimStart(l) == TrimStart(l[1..]) && TrimStart(s) == TrimStart(s[1..]);
        TrimStartLower(s[1..]);
      } else {
        assert TrimStart(l) == l && TrimStart(s) == s;
      }
    }
  }

  lemma {:induction false} TrimEndLower(s: string)
    ensures TrimEnd(LowerCase(s)) == LowerCase(TrimEnd(s))
    decreases |s|
  {
    if |s| > 0 {
      var l := LowerCase(s);
      LowerCaseLast(s);
      assert IsSpace(l[|l| - 1]) <==> IsSpace(s[|s| - 1]);
      if IsSpace(s[|s| - 1]) {
        LowerCasePrefix(s, |s| - 1);
        TrimEndLower(s[..|s| - 1]);
      }
    }
  }

  lemma {:induction false} LowerCaseLast(s: string)
    requires |s| > 0
    ensures LowerCase(s)[|s| - 1] == LowerChar(s[|s| - 1])
    decreases |s|
  {
    if |s| > 1 {
      LowerCaseLast(s[1..]);
    }
  }

  lemma {:induction false} LowerCasePrefix(s: string, n: nat)
    requires n <= |s|
    ensures LowerCase(s)[..n] == LowerCase(s[..n])
    decreases |s|
  {
    if n > 0 {
      assert s[..n][1..] == s[1..][..n - 1];
      LowerCasePrefix(s[1..], n - 1);
    }
  }
}

=== FILE: users.dfy ===
/** The entities the users API works on: stored user rows, the identity a
    verified token carries, and the partial update a request asks for. */
module Users {
  import opened Values

  /** A timestamp as the database stores it; the model never inspects it. */
  type Time = int

  /** The two roles a stored user can have. */
  datatype Role = UserRole | AdminRole

  /** The spelling of a role in request bodies, tokens and the database. */
  function RoleName(r: Role): (s: string)
    ensures s == "user" || s == "admin"
    ensures r.AdminRole? <==> s == "admin"
  {
    match r
    case UserRole => "user"
    case AdminRole => "admin"
  }

  /** One row of the users table, with the six columns every query selects. */
  datatype User = User(id: nat, email: string, name: string, role: Role, createdAt: Time, updatedAt: Time)

  /** The users table, keyed by id. */
  type Store = map<nat, User>

  /** Each row sits under its own id. */
  ghost predicate KeysMatch(store: Store) {
    forall k :: k in store ==> store[k].id == k
  }

  /** No two rows share an email address. */
  ghost predicate EmailsUnique(store: Store) {
    forall a, b :: a in store && b in store && a != b ==> store[a].email != store[b].email
  }

  /** The table's integrity constraints: primary key and unique email. */
  ghost predicate Valid(store: Store) {
    KeysMatch(store) && EmailsUnique(store)
  }

  /** The decoded payload of a verified token. The role is whatever string
      the token carries; it is not checked against `Role`. */
  datatype Identity = Identity(id: nat, email: string, role: string)

  /** The fields an update request supplies; `None` means the key is absent. */
  datatype Fields = Fields(name: Option<string>, email: Option<string>, role: Option<Role>)

  /** Whether an update supplies no field at all. */
  predicate NoFields(f: Fields) {
    f.name.None? && f.email.None? && f.role.None?
  }

  /** The row an update writes: every supplied field replaces the stored one,
      every other column keeps its value, and `updated_at` takes the clock
      value `now`. */
  function Merge(u: User, f: Fields, now: Time): (v: User)
    ensures v.id == u.id && v.createdAt == u.createdAt && v.updatedAt == now
    ensures f.name.None? ==> v.name == u.name
    ensures f.name.Some? ==> v.name == f.name.value
    ensures f.email.None? ==> v.email == u.email
    ensures f.email.Some? ==> v.email == f.email.value
    ensures f.role.None? ==> v.role == u.role
    ensures f.role.Some? ==> v.role == f.role.value
  {
    u.(name := f.name.GetOr(u.name), email := f.email.GetOr(u.email),
       role := f.role.GetOr(u.role), updatedAt := now)
  }

  /** Repeating an update changes nothing but `updated_at`. */
  lemma MergeIdempotent(u: User, f: Fields, t1: Time, t2: Time)
    ensures Merge(Merge(u, f, t1), f, t2) == Merge(u, f, t2)
  {
  }

  /** The columns the delete query returns. */
  datatype Deleted = Deleted(id: nat, email: string, name: string, role: Role)
}

=== FILE: validation.dfy ===
/** The two request schemas: the path id and the update body. A failed
    parse yields the list of issues the schema library reports; how they
    are formatted for the client is not part of this model. */
module Validation {
  import opened Values
  import opened Text
  import opened Users

  /** The message the id schema attaches to its pattern check. */
  const ID_MESSAGE := "ID must be a valid number"

  /** The message of the update schema's non-empty refinement. */
  const EMPTY_UPDATE_MESSAGE := "At least one field must be provided for update"

  /** Longest name or email the schema admits, and shortest name. */
  const MAX_LENGTH := 255
  const MIN_NAME_LENGTH := 2

  /** A JSON value in a request body, as far as the schemas look at it. */
  datatype Raw = Str(s: string) | NotString

  /** A parsed request body: an object whose keys map to values, or any
      other JSON value (or no body at all). Unknown keys are ignored. */
  datatype RequestBody = Object(fields: map<string, Raw>) | NotObject

  /** One validation issue, naming the check that failed. */
  datatype Issue =
    | BadId                        // the id is not a non-empty digit string
    | ExpectedObject               // the body is not an object
    | ExpectedString(key: string)  // a supplied field is not a string
    | TooShort(key: string)
    | TooLong(key: string)
    | BadEmail
    | BadRole                      // a role string outside "user" | "admin"
    | EmptyUpdate                  // no field survives the parse

  /** The message text the source itself spells out, where it does. */
  function CustomMessage(i: Issue): Option<string> {
    match i
    case BadId => Some(ID_MESSAGE)
    case EmptyUpdate => Some(EMPTY_UPDATE_MESSAGE)
    case _ => None
  }

  // ---------------------------------------------------------------------------
  // Path id

  /** A path id is a non-empty all-digit string. */
  predicate IdAcceptable(raw: string) {
    |raw| > 0 && AllDigits(raw)
  }

  /** The id schema: the pattern `^\d+$`, then conversion to a number. */
  function ParseId(raw: string): (r: Result<nat, seq<Issue>>)
    ensures r.Ok? <==> IdAcceptable(raw)
    ensures r.Ok? ==> DecimalValue(raw) == r.value
    ensures r.Err? ==> r.error == [BadId]
  {
    if |raw| > 0 && AllDigits(raw) then Ok(DecimalValue(raw)) else Err([BadId])
  }

  /** Every number's decimal spelling is accepted and denotes that number. */
  lemma ParseIdRoundTrip(n: nat)
    ensures ParseId(DecimalString(n)) == Ok(n)
  {
  }

  /** Leading zeros are accepted and do not change the id. */
  lemma ParseIdLeadingZeros(s: string)
    requires IdAcceptable(s)
    ensures ParseId("0" + s) == ParseId(s)
  {
    LeadingZeroIgnored(s);
  }

  /** A string holding any non-digit is rejected, wherever the non-digit is. */
  lemma ParseIdRejectsNonDigit(raw: string, i: nat)
    requires i < |raw| && !IsDigit(raw[i])
    ensures ParseId(raw) == Err([BadId])
  {
  }

  /** The empty id and the typical malformed ids are rejected. */
  lemma ParseIdExamples()
    ensures ParseId("") == Err([BadId])
    ensures ParseId("-1") == Err([BadId])
    ensures ParseId("1.5") == Err([BadId])
    ensures ParseId("test-db") == Err([BadId])
    ensures ParseId("007") == Ok(7)
  {
    ParseIdRejectsNonDigit("-1", 0);
    ParseIdRejectsNonDigit("1.5", 1);
    ParseIdRejectsNonDigit("test-db", 0);
    LeadingZeroIgnored("7");
    LeadingZeroIgnored("07");
    assert "0" + "7" == "07" && "0" + "07" == "007";
    assert DecimalValue("7") == 7;
  }

  // ---------------------------------------------------------------------------
  // Update body, field by field

  /** The name check: a length of 2 to 255, counted in UTF-16 code units
      before trimming. */
  predicate NameAcceptable(s: string) {
    MIN_NAME_LENGTH <= Utf16Length(s) <= MAX_LENGTH
  }

  /** The email check: an address per `isEmail` and a length of at most 255
      UTF-16 code units, both on the value as sent. */
  predicate EmailAcceptable(s: string, isEmail: string -> bool) {
    isEmail(s) && Utf16Length(s) <= MAX_LENGTH
  }

  /** The role check: exactly one of the two role names. */
  predicate RoleAcceptable(s: string) {
    s == "user" || s == "admin"
  }

  /** An optional field is acceptable when absent, or a string passing `ok`. */
  predicate FieldAcceptable(raw: Option<Raw>, ok: string -> bool) {
    raw.None? || (raw.value.Str? && ok(raw.value.s))
  }

  /** The key's value in an object body, absent when the key is not there. */
  function Lookup(fields: map<string, Raw>, key: string): Option<Raw> {
    if key in fields then Some(fields[key]) else None
  }

  /** `name: string().min(2).max(255).trim().optional()`. */
  function ParseName(raw: Option<Raw>): (r: Result<Option<string>, seq<Issue>>)
    ensures r.Ok? <==> FieldAcceptable(raw, NameAcceptable)
    ensures r.Ok? ==> (r.value.Some? <==> raw.Some?)
    ensures r.Ok? && raw.Some? ==> r.value.value == Trim(raw.value.s)
    ensures r.Err? ==> |r.error| > 0 && EmptyUpdate !in r.error
  {
    match raw
    case None => Ok(None)
    case Some(NotString) => Err([ExpectedString("name")])
    case Some(Str(s)) =>
      var issues := (if Utf16Length(s) < MIN_NAME_LENGTH then [TooShort("name")] else [])
        + (if Utf16Length(s) > MAX_LENGTH then [TooLong("name")] else []);
      if issues == [] then Ok(Some(Trim(s))) else Err(issues)
  }

  /** `email: string().email().max(255).toLowerCase().trim().optional()`. */
  function ParseEmail(raw: Option<Raw>, isEmail: string -> bool): (r: Result<Option<string>, seq<Issue>>)
    ensures r.Ok? <==> FieldAcceptable(raw, s => EmailAcceptable(s, isEmail))
    ensures r.Ok? ==> (r.value.Some? <==> raw.Some?)
    ensures r.Ok? && raw.Some? ==> r.value.value == Trim(LowerCase(raw.value.s))
    ensures r.Err? ==> |r.error| > 0 && EmptyUpdate !in r.error
  {
    match raw
    case None => Ok(None)
    case Some(NotString) => Err([ExpectedString("email")])
    case Some(Str(s)) =>
      var issues := (if isEmail(s) then [] else [BadEmail])
        + (if Utf16Length(s) > MAX_LENGTH then [TooLong("email")] else []);
      if issues == [] then Ok(Some(Trim(LowerCase(s)))) else Err(issues)
  }

  /** `role: enum(['user', 'admin']).optional()`. */
  function ParseRole(raw: Option<Raw>): (r: Result<Option<Role>, seq<Issue>>)
    ensures r.Ok? <==> FieldAcceptable(raw, RoleAcceptable)
    ensures r.Ok? ==> (r.value.Some? <==> raw.Some?)
    ensures r.Ok? && raw.Some? ==> RoleName(r.value.value) == raw.value.s
    ensures r.Err? ==> |r.error| > 0 && EmptyUpdate !in r.error
  {
    match raw
    case None => Ok(None)
    case Some(NotString) => Err([ExpectedString("role")])
    case Some(Str(s)) =>
      if s == "user" then Ok(Some(UserRole))
      else if s == "admin" then Ok(Some(AdminRole))
      else Err([BadRole])
  }

  /** The issues of one field parse, none when it succeeded. */
  function IssuesOf<T>(r: Result<T, seq<Issue>>): seq<Issue> {
    if r.Err? then r.error else []
  }

  // ---------------------------------------------------------------------------
  // Update body, whole

  /** The three fields an update body may carry. */
  predicate HasUpdateKey(fields: map<string, Raw>) {
    "name" in fields || "email" in fields || "role" in fields
  }

  /** Every supplied field of an object body passes its check. */
  predicate FieldsAcceptable(fields: map<string, Raw>, isEmail: string -> bool) {
    && FieldAcceptable(Lookup(fields, "name"), NameAcceptable)
    && FieldAcceptable(Lookup(fields, "email"), s => EmailAcceptable(s, isEmail))
    && FieldAcceptable(Lookup(fields, "role"), RoleAcceptable)
  }

  /** The update schema: the field checks, then the refinement that at least
      one key survives. Field issues come first; the refinement can only
      report when no field failed. */
  function ParseUpdate(body: RequestBody, isEmail: string -> bool): (r: Result<Fields, seq<Issue>>)
    ensures r.Ok? <==> body.Object? && FieldsAcceptable(body.fields, isEmail) && HasUpdateKey(body.fields)
    ensures r == Err([EmptyUpdate]) <==> body.Object? && !HasUpdateKey(body.fields)
    ensures r.Ok? ==> !NoFields(r.value)
    ensures r.Ok? ==> (r.value.name.Some? <==> "name" in body.fields)
    ensures r.Ok? ==> (r.value.email.Some? <==> "email" in body.fields)
    ensures r.Ok? ==> (r.value.role.Some? <==> "role" in body.fields)
    ensures r.Ok? && r.value.name.Some? ==> r.value.name.value == Trim(body.fields["name"].s)
    ensures r.Ok? && r.value.email.Some? ==> r.value.email.value == Trim(LowerCase(body.fields["email"].s))
    ensures r.Ok? && r.value.role.Some? ==> RoleName(r.value.role.value) == body.fields["role"].s
  {
    match body
    case NotObject => Err([ExpectedObject])
    case Object(fields) =>
      var name := ParseName(Lookup(fields, "name"));
      var email := ParseEmail(Lookup(fields, "email"), isEmail);
      var role := ParseRole(Lookup(fields, "role"));
      var issues := IssuesOf(name) + IssuesOf(email) + IssuesOf(role);
      assert EmptyUpdate !in issues;
      if issues != [] then Err(issues)
      else
        var f := Fields(name.value, email.value, role.value);
        if NoFields(f) then Err([EmptyUpdate]) else Ok(f)
  }

  /** A body without any of the three keys, whatever else it holds, is
      rejected with the refinement's message only. */
  lemma EmptyUpdateMessage(fields: map<string, Raw>, isEmail: string -> bool)
    requires !HasUpdateKey(fields)
    ensures ParseUpdate(Object(fields), isEmail) == Err([EmptyUpdate])
    ensures CustomMessage(EmptyUpdate) == Some(EMPTY_UPDATE_MESSAGE)
  {
  }

  /** The length bounds apply to the name as sent: a padded name of legal
      length is accepted even when trimming leaves fewer than two characters. */
  lemma NameBoundIsOnRawInput()
    ensures ParseName(Some(Str(" a "))) == Ok(Some("a"))
  {
    var s := " a ";
    assert IsSpace(s[0]) && TrimStart(s) == TrimStart(s[1..]);
    assert TrimStart(s) == "a ";
    assert TrimEnd("a ") == TrimEnd("a");
  }

  /** Lengths are JavaScript lengths: a character outside the Basic
      Multilingual Plane counts as two code units, so one such character is
      a long enough name. */
  lemma AstralNameLongEnough()
    ensures ParseName(Some(Str("\U{1F600}"))) == Ok(Some("\U{1F600}"))
  {
    var one := "\U{1F600}";
    assert Utf16Length(one) == 2 by { assert IsAstral(one[0]); }
    assert Trim(one) == one by { assert !IsSpace(one[0]); }
  }

  /** 128 characters outside the Basic Multilingual Plane are 256 code
      units, too long for a name. */
  lemma AstralNameTooLong(s: string)
    requires |s| == 128 && forall i :: 0 <= i < |s| ==> IsAstral(s[i])
    ensures ParseName(Some(Str(s))) == Err([TooLong("name")])
  {
    assert Utf16Length(s) == 256;
    var issues: seq<Issue> := [] + [TooLong("name")];
    assert issues == [TooLong("name")];
  }
}

=== FILE: values.dfy ===
/** Failure-carrying values shared by every module of the model. */
module Values {

  /** A value that may be absent: JavaScript's `undefined` for an optional field,
      an unset environment variable, or a cookie that was not sent. */
  datatype Option<T> = None | Some(value: T) {

    /** The carried value, or `default` when there is none. */
    function GetOr(default: T): T {
      match this
      case Some(v) => v
      case None => default
    }
  }

  /** The outcome of an operation that may throw: `Ok` carries the result,
      `Err` the thrown error. */
  datatype Result<T, E> = Ok(value: T) | Err(error: E)
}
